=== FILE: README.md ===
# Narada core, modelled in Dafny

Narada is a Thai-language customer-service assistant for online shops. A shop
owner keeps a list of FAQs and picks a reply tone, and a language model
answers customer questions from those FAQs. Most of the repository is UI and
database glue. This project models the parts whose behaviour can be stated
exactly, and proves properties about them:

- **Demo chat endpoint** (`rate_limit.dfy`, `demo_chat.dfy`). The public
  landing-page endpoint does the following:
  - a fixed-window rate limiter per client address, at most 10 requests per
    60 000 ms;
  - question validation;
  - the `<[^>]*>` tag stripper followed by `trim`;
  - the serialisation of the four built-in demo FAQs;
  - the choice between the 429, 400, 500 and 200 answers.
- **Prompt assembly** (`prompt.dfy`). This covers the four tone presets, the
  defaults for the shop name and instructions, the numbered FAQ context, the
  system prompt template, the request sent to the chat model, and the apology
  used when the model returns nothing.
- **Authenticated generate endpoint** (`generate_route.dfy`). This is the
  order in which 400, 401, 404 and 500 win. It also covers which FAQ rows feed
  the context string and the "no FAQ" fallback.
- **Form schemas** (`validations.dfy`). These are the login, registration,
  FAQ, settings, answer-generator and profile forms, with their Thai messages,
  reduced to length, enum and equality checks.
- **User store** (`user_store.dfy`). This is the client-side store of user,
  profile and settings, with its setters, `reset`, and the pro, trial and
  subscription checks.
- **Landing chat widgets** (`chat_input.dfy`, `chat_messages.dfy`).
  - The chat box is a state machine over its text and error flag.
  - The conversation log only ever has messages appended.
- **`.env.local` readers** (`env_parse.dfy`).
  - Four maintenance scripts share a regex-based parser.
  - The database-reset script has its own split/join parser, and falls back
    to the process environment.
- **Shared JavaScript semantics** (`jstext.dfy`, `wrappers.dfy`, `types.dfy`,
  `http.dfy`). These cover `trim` with the ECMAScript whitespace set,
  one-character `split`, `join`, template literals, the decimal rendering of
  numbers, `Option`/`Result`, the schema enums and row shapes, and the request
  bodies and responses of the endpoints.

Effects are made into parameters:
- the clock (`now`);
- the chat model's completion (`complete`);
- the date parser (`parseInstant`);
- the e-mail check (`isEmail`);
- the contents of `.env.local`: a string for the four scripts with the shared parser, and for the reset script an `Option<string>` with `None` for a failed read;
- the results of the authentication and table reads.

## Model

| member | source | states |
|---|---|---|
| RateLimit.CheckRateLimit | app/api/demo/chat/route.ts:31-47 | A missing or expired window (strictly past its reset time) is replaced by count 1 ending 60 000 ms later and the request is allowed. Inside the window the request is allowed iff the count is below 10, and then the count goes up by one. A refusal leaves the map unchanged. Other addresses' entries never change and no entry is removed. Counts stay within 1..10. |
| RateLimit.RunKeepsKeys | app/api/demo/chat/route.ts:29-47 | Over a run of requests from one client (`RunRequests`), the map only gains entries and gains that client's entry. Counts stay within 1..10 when they started there. |
| RateLimit.RunInsideWindow | app/api/demo/chat/route.ts:41-46 | Within one window the j-th further request is allowed iff the count before it plus j is below 10. The count saturates at 10 and the reset time does not move. |
| RateLimit.KthRequestAllowed | app/api/demo/chat/route.ts:35-46 | Starting from no live window, the k-th request of a burst inside 60 000 ms is allowed iff k ≤ 10. |
| RateLimit.ExpiredWindowResets | app/api/demo/chat/route.ts:35-38 | Once the reset time has passed, the next request starts a fresh window with count 1 and is allowed. |
| RateLimit.ServeKeepsKeys | app/api/demo/chat/route.ts:29-47 | Over any sequence of requests from any clients (`Serve`), the map's keys become exactly the earlier keys plus the keys that sent a request. Counts stay within 1..10 when they started there. |
| RateLimit.RunSeesOwnEntry | app/api/demo/chat/route.ts:31-47 | A run of requests from one client gives the same answers and the same final entry for it whatever the other clients' entries are. |
| RateLimit.ServeIsolatesClients | app/api/demo/chat/route.ts:29-47 | Each client has its own quota. In any interleaving of requests from many clients, one client's answers and final entry are those of its requests sent alone. |
| DemoChat.ClientKey | app/api/demo/chat/route.ts:52 | The limiter key is the forwarded-for header if non-empty, else the real-IP header if non-empty, else `unknown`. It is never empty. |
| DemoChat.StripTags | app/api/demo/chat/route.ts:75 | Removing `<…>` runs gives a string no longer than the input, made only of the input's characters, with no `<` followed later by `>`. Which text survives is stated by StripFirstTag and StripTagsFixpoint. |
| DemoChat.StripTagsFixpoint | app/api/demo/chat/route.ts:75 | The stripper leaves a string unchanged iff the string has no `<` followed later by `>`. |
| DemoChat.StripFirstTag | app/api/demo/chat/route.ts:75 | For text x with no `<` and y with no `>`, stripping x + `<` + y + `>` + z keeps x and continues with z. With StripTagsFixpoint this fixes the result on every input. |
| DemoChat.StripTagsIdempotent | app/api/demo/chat/route.ts:75 | Stripping twice is the same as stripping once. |
| DemoChat.Sanitize | app/api/demo/chat/route.ts:75 | The sanitised question is a slice of the stripped question with only whitespace cut off at both ends. It has no whitespace at either end, is empty iff the stripped question is all whitespace, has no tags left and is no longer than the question. |
| DemoChat.SanitizeOneTag | app/api/demo/chat/route.ts:75 | A question x + `<` + y + `>` + z with one tag, no `<` in x and tag-free z, reaches the model as the trim of x + z. |
| DemoChat.DemoContextAppend | app/api/demo/chat/route.ts:78-80 | The demo context (`DemoContext`) of one more FAQ is the earlier context, a blank line, and that FAQ's `หมวดหมู่:`/`คำถาม:`/`คำตอบ:` block, so the blocks keep the input order. For a single FAQ it is just that block. |
| DemoChat.DemoContextMentions | app/api/demo/chat/route.ts:78-80 | Every demo FAQ's category, question and answer occur in the demo context string. |
| DemoChat.QuestionAccepted | app/api/demo/chat/route.ts:67 | The question is accepted iff it is a string with some non-whitespace character. The `!question` test adds nothing to the trim test. |
| DemoChat.HandleDemo | app/api/demo/chat/route.ts:49-89 | The rate limit is checked first and its map update is kept whatever the body. 429 iff refused; 500 iff allowed and the body does not parse; 400 iff allowed and `question` is missing, not a string, or blank after trim. Otherwise, and only then, generation is asked for with the sanitised question, the demo context, tone `friendly`, shop name `Demo Shop` and the fixed demo instructions. |
| DemoChat.QuotaIgnoresBody | app/api/demo/chat/route.ts:52-64 | Two requests that differ only in their body use up the same quota. |
| DemoChat.TagOnlyQuestion | app/api/demo/chat/route.ts:67-89 | A question made only of one tag, with any whitespace around it, passes validation but reaches the model as the empty string, because validation runs before sanitising. |
| DemoChat.DemoResponse | app/api/demo/chat/route.ts:55-103 | A refusal gives 429 with `กรุณารอสักครู่ก่อนส่งคำถามใหม่ค่ะ`, and a bad question gives 400 with `กรุณาใส่คำถามค่ะ`, each exactly for that outcome. An unreadable body or a failed generation, and only those, gives 500 with `เกิดข้อผิดพลาดในการตอบกลับค่ะ กรุณาลองใหม่อีกครั้งค่ะ`. A 200 carries the generated answer with tone `friendly`, and only a successful generation gives 200. |
| Prompt.PresetNamesDistinct | lib/ai/azure-openai.ts:12-37 | The preset table (`Preset`) gives the four tones pairwise different display names. |
| Prompt.CategoryLabel | lib/ai/azure-openai.ts:65 | A missing or empty category is shown as `ทั่วไป`; any other category is shown as is. |
| Prompt.FaqContextEmpty | lib/ai/azure-openai.ts:62-67 | An empty FAQ list gives an empty context. |
| Prompt.FaqContextAppend | lib/ai/azure-openai.ts:62-67 | The FAQ context (`FaqContext`) of one more FAQ is the earlier context, a blank line, and that FAQ's block numbered n+1, so blocks keep the input order. |
| Prompt.FaqBlockNumbered | lib/ai/azure-openai.ts:64-65 | The i-th block starts with the decimal number i+1. |
| Prompt.FaqContextMentions | lib/ai/azure-openai.ts:62-67 | Every FAQ's question, answer and category label occur in the context. |
| Prompt.SystemPromptMentions | lib/ai/azure-openai.ts:70-84 | The system prompt (`SystemPrompt`) starts with the tone's preset prompt. It contains the quoted shop name, the FAQ context and the tone's display name. |
| Prompt.InstructionLineIff | lib/ai/azure-openai.ts:77 | The extra-instructions line is present iff the instructions are non-empty, and then it reads `คำแนะนำเพิ่มเติม: ` + instructions + newline. |
| Prompt.BuildRequest | lib/ai/azure-openai.ts:52-101 | The request carries the customer question as the user message and a 500-token cap. The system prompt starts with the tone's prompt and quotes the shop name, `ร้านค้า` when absent. It contains the whole FAQ context (so every FAQ's question and answer) and the tone's display name. With non-empty instructions it contains the line `คำแนะนำเพิ่มเติม: <instructions>`; with absent or empty ones it is exactly the prompt without that line. |
| Prompt.AbsentInstructionsAsEmpty | lib/ai/azure-openai.ts:57 | Absent instructions behave exactly like empty ones. |
| Prompt.AnswerText | lib/ai/azure-openai.ts:103 | Missing or empty completion content becomes the fixed apology, and any other content is returned as is. The answer is never empty. |
| Prompt.GenerateResponse | lib/ai/azure-openai.ts:86-107 | A failing completion call becomes the error `Failed to generate AI response`, and only then is there an error. Otherwise the answer is the content when non-empty and the apology when it is missing or empty. |
| GenerateRoute.ActiveFaqsMembership | app/api/ai/generate/route.ts:46-50 | A row is selected by the query (`ActiveFaqsOf`) iff it is in the table, belongs to the user and is active. |
| GenerateRoute.ActiveFaqsOfAppend | app/api/ai/generate/route.ts:46-50 | Selection works row by row: selecting from two tables put together is selecting from each in turn. |
| GenerateRoute.RouteFaqContext | app/api/ai/generate/route.ts:57-61 | A failed read or an empty selection gives `ไม่มี FAQ ในระบบ`. The format of a non-empty selection is stated by RouteFaqContextAppend. |
| GenerateRoute.RouteFaqContextAppend | app/api/ai/generate/route.ts:57-61 | The context of one more selected row is the earlier context, a blank line, and that row's `หมวด:`/`Q:`/`A:` block, so the blocks keep the query's order. For a single row it is just that block. |
| GenerateRoute.Decide | app/api/ai/generate/route.ts:6-70 | 500 iff the body does not parse. 400 iff `question` is missing, empty or not a string. 401 iff the question is fine but nobody is signed in. 404 iff signed in but the settings read fails. Generation is asked for iff all four checks pass, and it uses the question, the stored tone, shop name and instructions (empty when absent) and the user's active-FAQ context. |
| GenerateRoute.QuestionCheckedFirst | app/api/ai/generate/route.ts:8-15 | A bad question gives 400 whatever the sign-in, settings and FAQ outcomes. |
| GenerateRoute.BlankQuestionAccepted | app/api/ai/generate/route.ts:10 | A whitespace-only question is not refused by this endpoint. |
| GenerateRoute.FaqReadFailureTolerated | app/api/ai/generate/route.ts:52-61 | A failed FAQ read is only logged: generation goes ahead with the "no FAQ" context. |
| GenerateRoute.ContextMentionsActiveFaqs | app/api/ai/generate/route.ts:57-61 | Every active FAQ of the user has its category, question and answer in the context. |
| GenerateRoute.ContextIgnoresOtherRows | app/api/ai/generate/route.ts:46-61 | Inactive rows and other users' rows do not affect the context. |
| GenerateRoute.RouteResponse | app/api/ai/generate/route.ts:72-78 | Refusals answer with their own status and message. A failed generation gives 500 with `เกิดข้อผิดพลาดในการสร้างคำตอบ`. A successful one gives 200 with the answer and no tone. |
| Types.AllTonesListed | types/index.ts:9 | There are exactly four tones, each listed once. |
| Types.ParseToneKey | types/index.ts:9 | A string reads as a tone iff it is that tone's key. |
| Validations.LoginIssues | lib/validations.ts:4-7 | The login form passes iff the e-mail is valid and the password has at least 6 characters. The password message appears iff it is shorter. |
| Validations.RegisterIssues | lib/validations.ts:9-19 | The registration form passes iff the e-mail is valid, the password has ≥ 6 characters, the shop name ≥ 2, and the passwords agree. The mismatch message is attached to `confirmPassword` iff they differ, and comes last. |
| Validations.MismatchReportedAlongsideFieldIssues | lib/validations.ts:9-19 | The mismatch is reported even when other fields fail too. |
| Validations.ParseFaq | lib/validations.ts:25-30 | The FAQ form passes iff category ≥ 1, question ≥ 5 and answer ≥ 10 characters. The active flag defaults to true. |
| Validations.ToneCheck | lib/validations.ts:36-38 | A missing tone gives `กรุณาเลือก tone`. A tone passes iff it is one of the four keys. |
| Validations.ParseSettings | lib/validations.ts:35-42 | The settings form passes iff the tone is valid, shop name ≥ 2, greeting ≤ 200 and instructions ≤ 500 when present. The values are kept. |
| Validations.StoredTonesAccepted | lib/validations.ts:36 | Every stored tone key passes the tone check and reads back as the same tone. |
| Validations.GenerateAnswerIssues | lib/validations.ts:47-49 | The generator form passes iff the question has at least 3 characters. |
| Validations.GeneratorFormStricterThanEndpoint | lib/validations.ts:47-49 | Whatever the form accepts, the generate endpoint accepts too. The endpoint also takes two-character questions the form refuses. |
| Validations.ProfileUpdateIssues | lib/validations.ts:54-56 | The profile form passes iff the shop name has at least 2 characters. |
| UserStore.SetUser | lib/store/use-user-store.ts:53 | Sets the user and changes nothing else. |
| UserStore.SetProfile | lib/store/use-user-store.ts:54 | Sets the profile and changes nothing else. |
| UserStore.SetSettings | lib/store/use-user-store.ts:55 | Sets the settings and changes nothing else. |
| UserStore.SetLoading | lib/store/use-user-store.ts:56 | Sets the loading flag and changes nothing else. |
| UserStore.Reset | lib/store/use-user-store.ts:57-63 | After a reset, user, profile and settings are empty and nothing is loading. |
| UserStore.ResetForgets | lib/store/use-user-store.ts:47-63 | Reset does not depend on the state and is idempotent. It differs from the initial state only in the loading flag. |
| UserStore.SettersCommute | lib/store/use-user-store.ts:53-56 | Setters of different fields commute, and a later set of the same field wins. |
| UserStore.IsPro | lib/store/use-user-store.ts:66-69 | True iff a profile is loaded and its plan is `pro`. |
| UserStore.IsTrialActive | lib/store/use-user-store.ts:71-75 | True iff a profile is loaded whose trial end is present, non-empty, a valid date, and strictly after now. |
| UserStore.IsSubscriptionActive | lib/store/use-user-store.ts:77-81 | The same rule over the subscription end. |
| UserStore.ActivityMonotone | lib/store/use-user-store.ts:71-81 | Active at an instant implies active at every earlier instant. At the end instant itself the trial is over. |
| UserStore.NoProfileNoPlan | lib/store/use-user-store.ts:66-81 | Without a profile, as after a reset, all three checks are false. |
| UserStore.ProWithoutSubscription | lib/store/use-user-store.ts:66-81 | The pro check does not look at the subscription end. |
| ChatInput.Send | components/landing/ChatInput.tsx:28-44 | A blank box sets the error flag, sends nothing and keeps the text. Otherwise the trimmed text is sent, is non-empty with no whitespace at either end, and the box is emptied with the error cleared. |
| ChatInput.KeyDown | components/landing/ChatInput.tsx:46-51 | Only Enter without Shift prevents the default and acts as the send button. Every other key changes nothing and sends nothing. |
| ChatInput.Change | components/landing/ChatInput.tsx:53-58 | An edit replaces the text and always clears the error flag. |
| ChatInput.SendTwice | components/landing/ChatInput.tsx:36-38 | Right after a successful send, sending again only shows the error. |
| ChatInput.SentIsTrimmed | components/landing/ChatInput.tsx:29-37 | A sent text is its own trim, and re-sending it sends the same text. |
| ChatInput.SendableIff | components/landing/ChatInput.tsx:29-37 | A text is non-empty and its own trim iff it is non-empty with no whitespace at either end. |
| ChatInput.Replay | components/landing/ChatInput.tsx:28-58 | A session sends at most one text per click on the button or plain Enter press; typing and other keys never send. |
| ChatInput.ReplayAppend | components/landing/ChatInput.tsx:28-58 | A session split in two behaves as its first part followed by its second part from the state the first left: the final state is the second part's, and the texts sent are the first part's followed by the second's. |
| ChatInput.ReplaySendsOnlySendable | components/landing/ChatInput.tsx:28-58 | Over any session of typing, key presses and clicks, every text sent is non-empty and already trimmed. |
| ChatInput.Hint | components/landing/ChatInput.tsx:93-95 | The hint `กรุณาใส่คำถามค่ะ` is shown exactly while the error flag is set. |
| ChatInput.BlankEnterShowsError | components/landing/ChatInput.tsx:28-95 | Typing only whitespace and pressing Enter sends nothing and leaves the text with the error flag set and the hint shown. |
| ChatInput.ShiftEnterDoesNotSend | components/landing/ChatInput.tsx:46-51 | Shift+Enter leaves the box unchanged and sends nothing. |
| ChatMessages.AddMessage | components/landing/useChatMessages.ts:9-29 | Exactly one message is appended and returned, with the given role, content and time and the id `<role>-<time>`. The flags are unchanged. |
| ChatMessages.AddUserMessage | components/landing/useChatMessages.ts:9-18 | Appends and returns one `user` message with the given content. |
| ChatMessages.AddBotMessage | components/landing/useChatMessages.ts:20-29 | Appends and returns one `bot` message with the given content. |
| ChatMessages.MarkAsInteracted | components/landing/useChatMessages.ts:31-33 | Sets the interaction flag and changes nothing else. |
| ChatMessages.SetIsLoading | components/landing/useChatMessages.ts:6 | Sets the loading flag and changes nothing else. |
| ChatMessages.MarkIdempotent | components/landing/useChatMessages.ts:31-33 | Marking twice is marking once. |
| ChatMessages.IdsDistinct | components/landing/useChatMessages.ts:11 | Ids of messages added at different milliseconds, or with different roles, differ. |
| ChatMessages.SameInstantCollides | components/landing/useChatMessages.ts:11 | Two visitor messages added in the same millisecond get the same id, so the code does not guarantee unique ids. |
| ChatMessages.LogAppendOnly | components/landing/useChatMessages.ts:16 | Over any sequence of actions, earlier messages stay in place and in order. The log grows by exactly one per append, and the interaction flag never goes back. |
| ChatMessages.LogIsAppended | components/landing/useChatMessages.ts:9-29 | After any sequence of actions, the log is the earlier log followed by one message per append, in order, each with that append's role, content, time and `<role>-<time>` id. |
| ChatMessages.InteractedIffMarked | components/landing/useChatMessages.ts:31-33 | After any sequence of actions, the interaction flag is set iff it was set before or some action marked it. |
| ChatMessages.FromInitialChat | components/landing/useChatMessages.ts:5-7 | From the hook's initial state (no messages, not loading, no interaction), the log holds exactly one message per append, namely the appended messages in order, and the flag is set iff some action marked it. |
| EnvParse.MatchLine | test-register.mjs:8 | A match splits the line at its first `=` into a non-empty key free of `#` and `=`, and a value with no line terminator. |
| EnvParse.MatchLineIff | test-register.mjs:8 | The pattern yields key k and value v iff the line is k + `=` + v with k non-empty and free of `#` and `=`, and v free of line terminators. |
| EnvParse.FoldLastWins | test-register.mjs:7-12 | For the line-by-line fold (`Fold`) with either line reader (`MatchedEntry` for the shared parser, `ResetEntry`), a variable is defined iff some line assigns it, and its value is the one from the last such line. |
| EnvParse.ParseEnvAppendLine | test-register.mjs:7-12 | For the shared parser (`ParseEnv`: split at newlines, then fold), adding a line to the end of the file applies that line on top of the earlier result. |
| EnvParse.SharedParserReads | test-register.mjs:8-10 | A matching line assigns the trimmed text after the first `=` to the trimmed text before it. |
| EnvParse.ValueKeepsLaterSigns | verify-user.mjs:8-10 | In `A=b=c#d` the value is `b=c#d`: later `=` and `#` belong to the value. |
| EnvParse.CarriageReturnDropsLine | create-test-user-direct.mjs:9 | A line ending in a carriage return, as in a CRLF file, defines nothing. |
| EnvParse.CommentsAndBareLinesDropped | scripts/list-users.mjs:8 | Lines without `=`, lines starting with `#`, and lines starting with `=` define nothing. |
| EnvParse.RequireCredentials | test-register.mjs:17-20 | The script goes on iff both the URL and the anon key are present and non-empty. Otherwise it stops with the missing-credentials message. |
| EnvParse.ScriptCredentials | create-test-user-direct.mjs:15-21 | The registration, user-creation and user-listing scripts go on iff the parsed file defines both variables non-empty, and they use those values. Otherwise they stop with their own message. |
| EnvParse.VerifyUserCredentials | verify-user.mjs:14-17 | The verification script reads the two variables without checking them. Each is present iff the parsed file defines it, and then it is the parsed value. |
| EnvParse.VerifyUserDoesNotAbort | scripts/list-users.mjs:14-20 | On an empty file the other scripts stop, the user listing with the unmarked message and the other two with the marked one, while the verification script goes on with missing values. |
| EnvParse.ResetEntry | scripts/reset-all-data.mjs:18-21 | A line is skipped iff it is blank or its trimmed form starts with `#`. |
| EnvParse.ResetEntryParts | scripts/reset-all-data.mjs:20-21 | The name never holds `=`. With an `=` the name, `=` and the value put together give the trimmed line. Without one the name is the trimmed line and the value is empty. |
| EnvParse.ResetParserReads | scripts/reset-all-data.mjs:18-21 | For a line with no surrounding whitespace, the name and value are the untrimmed text on either side of the first `=`. |
| EnvParse.ParsersDisagreeOnSpaces | scripts/reset-all-data.mjs:18-21 | For `K = v` the shared parser assigns `v` to `K`, while the reset parser assigns ` v` to `K `. |
| EnvParse.CarriageReturnKeptByReset | scripts/reset-all-data.mjs:17-21 | The reset parser reads `key=value` followed by a carriage return as the entry (key, value), when the line has no other surrounding whitespace. |
| EnvParse.CarriageReturnIgnoredByReset | scripts/reset-all-data.mjs:17-18 | For every line, the reset parser reads the line followed by a carriage return exactly as the line without it. |
| EnvParse.LoadEnv | scripts/reset-all-data.mjs:13-29 | A failed read yields no variables. |
| EnvParse.LoadEnvLastWins | scripts/reset-all-data.mjs:13-24 | For a readable file, a variable is defined iff some kept line (trimmed, non-blank, not a comment) names it before its first `=`, and its value is the one the last such line gives. |
| EnvParse.FileOrProcess | scripts/reset-all-data.mjs:32-33 | The file's value is used when present and non-empty; otherwise the process environment's value is used. |
| EnvParse.ResetCredentials | scripts/reset-all-data.mjs:31-38 | The script goes on iff each variable is set and non-empty in the file or in the process environment; otherwise it stops with `❌ Missing Supabase credentials in .env.local`. Each credential is the file's value when that is set and non-empty, and otherwise the process environment's value. When the file cannot be read, only the process environment counts. |
| JsText.Trim | components/landing/ChatInput.tsx:29 | `trim` returns the slice left after removing ECMAScript whitespace at both ends. It has no whitespace at either end, and is empty iff the input is all whitespace. |
| JsText.TrimIdempotent | components/landing/ChatInput.tsx:29 | Trimming twice is trimming once. |
| JsText.TrimPadded | scripts/reset-all-data.mjs:18 | Trimming text padded with whitespace gives back the text. |
| JsText.TrimAppendSpace | scripts/reset-all-data.mjs:18 | One more whitespace character at the end does not change the trim. |
| JsText.JoinSplit | scripts/reset-all-data.mjs:20-21 | Joining (`Join`) the pieces of a split (`Split`) with the same separator restores the string. |
| JsText.SplitJoin | test-register.mjs:7 | Splitting a join of separator-free pieces restores the pieces. |
| JsText.SplitAppend | test-register.mjs:7 | One more separator and separator-free text after it adds exactly one piece. |
| JsText.Decimal | components/landing/useChatMessages.ts:11 | The decimal rendering of a number is non-empty, all digits, and has a leading zero only for 0. |
| JsText.DecimalRoundTrip | components/landing/useChatMessages.ts:11 | Reading the rendering back gives the number. |
| JsText.DecimalInjective | components/landing/useChatMessages.ts:11 | Different numbers render differently. |

## Left out

- The hand-off from the endpoints to the answer generator is not modelled.
  - Both endpoints pass positional arguments (app/api/demo/chat/route.ts:83-89, app/api/ai/generate/route.ts:64-70), but the generator destructures one options object (lib/ai/azure-openai.ts:52-58).
  - The endpoints are modelled up to the values they hand over. The generator is modelled against its declared interface, and its outcome is a parameter of the response functions.
  - As written, the generator receives a string where it expects the options object, so `faqs` is undefined. `faqs.map` (lib/ai/azure-openai.ts:62) then throws outside the generator's own `try`. Both endpoints' `catch` blocks turn that into a 500, so every accepted request gets a 500. The 200 paths of DemoChat.DemoResponse and GenerateRoute.RouteResponse describe the generator as its interface declares it, and the code as written never reaches them.
- The Azure OpenAI client construction, the completion call, the `temperature` value (a float) and `testConnection`. These are a foreign SDK and network I/O; the completion is a function parameter.
- All Supabase calls. Sign-in, the settings read and the FAQ read become outcome datatypes.
  - The order in which the FAQ query returns rows is not specified by the code; the model keeps the table order.
- Reading `.env.local`, `process.exit`, console output and the rest of the maintenance scripts. The abort is an `Err` with the printed message.
  - Only the reset script's read is an optional string, with `None` for a failed read, because its `try`/`catch` turns a failed read into an empty environment.
  - The four scripts with the shared parser read the file with an unguarded `readFileSync` (test-register.mjs:5). A missing file throws and ends them before any parsing. The model takes their file contents as a plain string and does not model that throw.
- A `.env` line whose key is `__proto__`. Assigning that key on a plain JavaScript object changes its prototype instead of adding an entry; the model stores it like any other key.
- Lengths count Unicode code points. zod's `min`/`max` and JavaScript's `length` count UTF-16 code units, which differ only for characters outside the Basic Multilingual Plane.
- What counts as a valid e-mail address (zod's `.email()` pattern) is a predicate parameter.
- zod's type errors for fields of the wrong JavaScript type. The forms' fields are typed strings, booleans and options.
- The generate endpoint's unchecked `settings.tone as ToneType` cast; the settings row holds a valid tone.
- Date parsing (`new Date(string)`) is a parameter that returns `None` for an invalid date.
- ChatMessages.AddMessage: one clock reading is used for both the id and the timestamp. The source reads `Date.now()` and `new Date()` separately, and they can fall in different milliseconds.
- The chat box's `disabled` and `placeholder` props, the textarea auto-resize and the DOM event objects.
- The Supabase `User` object is reduced to its id and e-mail.
- The rate-limit map is a value passed through each request. Sharing it between concurrent requests or processes is left out.
- The `catch` blocks of both endpoints are reduced to the failures the model has: an unparseable body and a failed generation.

=== FILE: chat_input.dfy ===
/**
 * The landing-page chat box as a state machine over the text in the box
 * and the error flag. Sending hands the trimmed text to the caller's
 * callback; the model returns it as `sent` instead of calling anything.
 */
module ChatInput {
  import opened Wrappers
  import opened JsText

  datatype InputState = InputState(value: string, hasError: bool)

  /** An empty box with no error shown. */
  const InitialInput: InputState := InputState("", false)

  /** The hint shown under the box while the error flag is set. */
  const EmptyQuestionHint: string := "กรุณาใส่คำถามค่ะ"

  /** The hint line under the box: shown, with its fixed text, exactly while the error flag is set. */
  function Hint(s: InputState): (r: Option<string>)
    ensures r.Some? <==> s.hasError
    ensures r.Some? ==> r.value == EmptyQuestionHint
  {
    if s.hasError then Some(EmptyQuestionHint) else None
  }

  datatype SendResult = SendResult(state: InputState, sent: Option<string>)

  /**
   * The send button. A blank box sets the error flag and sends nothing;
   * otherwise the trimmed text is sent, the box is emptied and the error
   * cleared.
   */
  function Send(s: InputState): (r: SendResult)
    ensures r.sent.None? <==> AllSpace(s.value)
    ensures r.sent.None? ==> r.state == InputState(s.value, true)
    ensures r.sent.Some? ==>
      && r.sent.value != []
      && !IsJsSpace(r.sent.value[0]) && !IsJsSpace(r.sent.value[|r.sent.value| - 1])
      && (exists i, j :: TrimmedAt(s.value, r.sent.value, i, j))
      && r.state == InitialInput
  {
    var trimmed := Trim(s.value);
    if trimmed == "" then SendResult(s.(hasError := true), None)
    else SendResult(InputState("", false), Some(trimmed))
  }

  datatype KeyResult = KeyResult(state: InputState, sent: Option<string>, preventDefault: bool)

  /** A key press in the box: Enter without Shift sends instead of starting a new line. */
  function KeyDown(s: InputState, key: string, shiftKey: bool): (r: KeyResult)
    ensures r.preventDefault <==> key == "Enter" && !shiftKey
    ensures r.preventDefault ==> r.state == Send(s).state && r.sent == Send(s).sent
    ensures !r.preventDefault ==> r.state == s && r.sent.None?
  {
    if key == "Enter" && !shiftKey then
      var sr := Send(s);
      KeyResult(sr.state, sr.sent, true)
    else
      KeyResult(s, None, false)
  }

  /** An edit replaces the text; any error shown is cleared. */
  function Change(s: InputState, value: string): (r: InputState)
    ensures r.value == value && !r.hasError
  {
    if s.hasError then InputState(value, false) else s.(value := value)
  }

  /** Right after a successful send the box is empty, so a second send only shows the error. */
  lemma SendTwice(s: InputState)
    requires !AllSpace(s.value)
    ensures Send(Send(s).state).sent.None?
    ensures Send(Send(s).state).state == InputState("", true)
  {
  }

  /** A sent text is its own trim: sending it again from a fresh box sends it unchanged. */
  lemma SentIsTrimmed(s: InputState)
    requires !AllSpace(s.value)
    ensures Trim(Send(s).sent.value) == Send(s).sent.value
    ensures Send(InputState(Send(s).sent.value, false)).sent == Send(s).sent
  {
    TrimOfTrimmed(Send(s).sent.value);
  }

  /** What the user does to the chat box. */
  datatype Event = Typed(value: string) | Pressed(key: string, shiftKey: bool) | Clicked

  /** One event: the next state and what it sends, if anything. */
  function Step(s: InputState, e: Event): SendResult {
    match e
    case Typed(v) => SendResult(Change(s, v), None)
    case Pressed(k, shift) =>
      var kr := KeyDown(s, k, shift);
      SendResult(kr.state, kr.sent)
    case Clicked => Send(s)
  }

  /** A text the box can send: not empty, and left unchanged by trimming. */
  predicate Sendable(m: string) {
    m != [] && Trim(m) == m
  }

  /** Sendable texts are exactly the non-empty texts with no whitespace at either end. */
  lemma SendableIff(m: string)
    ensures Sendable(m) <==> m != [] && !IsJsSpace(m[0]) && !IsJsSpace(m[|m| - 1])
  {
    if m != [] && !IsJsSpace(m[0]) && !IsJsSpace(m[|m| - 1]) {
      TrimOfTrimmed(m);
    }
  }

  /** Whatever one event sends is sendable. */
  lemma StepSendsSendable(s: InputState, e: Event)
    ensures Step(s, e).sent.Some? ==> Sendable(Step(s, e).sent.value)
  {
    if Step(s, e).sent.Some? {
      assert Step(s, e).sent == Send(s).sent;
      SentIsTrimmed(s);
    }
  }

  /** How many of the events try to send: clicks on the button and Enter without Shift. */
  function SendAttempts(events: seq<Event>): nat {
    if events == [] then 0
    else
      (if events[0].Clicked? || events[0] == Pressed("Enter", false) then 1 else 0)
      + SendAttempts(events[1..])
  }

  /**
   * A whole session of events: the final state and every text sent, in
   * order. Typing and other keys never send, so at most one text is sent
   * per click or plain Enter.
   */
  function Replay(s: InputState, events: seq<Event>): (r: (InputState, seq<string>))
    ensures |r.1| <= |events|
    ensures |r.1| <= SendAttempts(events)
    decreases |events|
  {
    if events == [] then (s, [])
    else
      var step := Step(s, events[0]);
      var rest := Replay(step.state, events[1..]);
      (rest.0, Emitted(step.sent) + rest.1)
  }

  /** The texts one step sends: none, or the one it sent. */
  function Emitted(sent: Option<string>): (r: seq<string>)
    ensures |r| <= 1
  {
    if sent.None? then [] else [sent.value]
  }

  /** A session that starts with `e`: that step, then the rest from the state it leaves. */
  lemma ReplayCons(s: InputState, e: Event, rest: seq<Event>)
    ensures var step := Step(s, e);
      var after := Replay(step.state, rest);
      Replay(s, [e] + rest) == (after.0, Emitted(step.sent) + after.1)
  {
  }

  /** A session split in two: the second part starts where the first ended, and the sent texts add up. */
  lemma {:induction false} ReplayAppend(s: InputState, e1: seq<Event>, e2: seq<Event>)
    ensures var first := Replay(s, e1);
      var second := Replay(first.0, e2);
      Replay(s, e1 + e2) == (second.0, first.1 + second.1)
    decreases |e1|
  {
    if e1 == [] {
      assert e1 + e2 == e2;
      assert [] + Replay(s, e2).1 == Replay(s, e2).1;
    } else {
      var e, tail := e1[0], e1[1..];
      assert e1 == [e] + tail;
      assert e1 + e2 == [e] + (tail + e2);
      var step := Step(s, e);
      ReplayCons(s, e, tail);
      ReplayCons(s, e, tail + e2);
      ReplayAppend(step.state, tail, e2);
      Regroup(Replay(s, e1), Replay(s, e1 + e2), Replay(step.state, tail + e2),
        Replay(step.state, tail), Replay(Replay(step.state, tail).0, e2), Emitted(step.sent));
    }
  }

  /** The bookkeeping of one inductive step of ReplayAppend, with the sessions as plain values. */
  lemma Regroup(whole1: (InputState, seq<string>), whole12: (InputState, seq<string>), tail12: (InputState, seq<string>),
                first: (InputState, seq<string>), second: (InputState, seq<string>), em: seq<string>)
    requires whole1 == (first.0, em + first.1)
    requires whole12 == (tail12.0, em + tail12.1)
    requires tail12 == (second.0, first.1 + second.1)
    ensures whole12 == (second.0, whole1.1 + second.1)
  {
    assert em + (first.1 + second.1) == (em + first.1) + second.1;
  }

  /** Every text in the list is sendable. */
  predicate AllSendable(ms: seq<string>) {
    ms == [] || (Sendable(ms[0]) && AllSendable(ms[1..]))
  }

  /** Whatever the user does, every text the box sends is sendable. */
  lemma {:induction false} ReplaySendsOnlySendable(s: InputState, events: seq<Event>)
    ensures AllSendable(Replay(s, events).1)
    decreases |events|
  {
    if events != [] {
      var step := Step(s, events[0]);
      var rest := Replay(step.state, events[1..]).1;
      ReplaySendsOnlySendable(step.state, events[1..]);
      assert Replay(s, events).1 == Emitted(step.sent) + rest;
      if step.sent.Some? {
        StepSendsSendable(s, events[0]);
        var ms := [step.sent.value] + rest;
        assert ms[1..] == rest;
      } else {
        assert Emitted(step.sent) + rest == rest;
      }
    }
  }

  /** Typing only whitespace and pressing Enter sends nothing and shows the error. */
  lemma BlankEnterShowsError(s: InputState, blank: string)
    requires AllSpace(blank)
    ensures Replay(s, [Typed(blank), Pressed("Enter", false)]) == (InputState(blank, true), [])
    ensures Hint(Replay(s, [Typed(blank), Pressed("Enter", false)]).0) == Some(EmptyQuestionHint)
  {
    var events := [Typed(blank), Pressed("Enter", false)];
    var typed := InputState(blank, false);
    assert Step(s, Typed(blank)) == SendResult(typed, None);
    assert Send(typed) == SendResult(InputState(blank, true), None);
    assert Step(typed, Pressed("Enter", false)) == Send(typed);
    assert events[1..] == [Pressed("Enter", false)];
    assert events[1..][1..] == [];
    assert Replay(typed, events[1..]) == (InputState(blank, true), []);
  }

  /** Shift+Enter never sends. */
  lemma ShiftEnterDoesNotSend(s: InputState)
    ensures Replay(s, [Pressed("Enter", true)]) == (s, [])
  {
    assert [Pressed("Enter", true)][1..] == [];
  }
}

=== FILE: chat_messages.dfy ===
/**
 * The landing-page conversation log: the messages shown, the loading
 * flag and whether the visitor has interacted yet. A message's id is its
 * role prefix followed by the millisecond clock reading at which it was
 * added, so the clock is a parameter of each append.
 */
module ChatMessages {
  import opened JsText

  datatype Role = User | Bot

  datatype Message = Message(id: string, role: Role, content: string, timestamp: nat)

  datatype ChatState = ChatState(messages: seq<Message>, isLoading: bool, hasInteracted: bool)

  /** No messages, not loading, no interaction yet. */
  const InitialChat: ChatState := ChatState([], false, false)

  /** The id prefix of each role. */
  function IdPrefix(role: Role): string {
    match role
    case User => "user-"
    case Bot => "bot-"
  }

  /** The id of a message of `role` added at instant `now`. */
  function MessageId(role: Role, now: nat): string {
    IdPrefix(role) + Decimal(now)
  }

  /**
   * Appends one message of the given role and returns it with the new
   * state. The log only grows by that message; the flags are untouched.
   */
  function AddMessage(s: ChatState, role: Role, content: string, now: nat): (r: (ChatState, Message))
    ensures r.0.messages == s.messages + [r.1]
    ensures r.1.role == role && r.1.content == content && r.1.timestamp == now
    ensures r.1.id == MessageId(role, now)
    ensures r.0.isLoading == s.isLoading && r.0.hasInteracted == s.hasInteracted
  {
    var m := Message(MessageId(role, now), role, content, now);
    (s.(messages := s.messages + [m]), m)
  }

  function AddUserMessage(s: ChatState, content: string, now: nat): (r: (ChatState, Message))
    ensures r.0.messages == s.messages + [r.1]
    ensures r.1.role == User && r.1.content == content
  {
    AddMessage(s, User, content, now)
  }

  function AddBotMessage(s: ChatState, content: string, now: nat): (r: (ChatState, Message))
    ensures r.0.messages == s.messages + [r.1]
    ensures r.1.role == Bot && r.1.content == content
  {
    AddMessage(s, Bot, content, now)
  }

  function MarkAsInteracted(s: ChatState): (r: ChatState)
    ensures r.hasInteracted
    ensures r.messages == s.messages && r.isLoading == s.isLoading
  {
    s.(hasInteracted := true)
  }

  function SetIsLoading(s: ChatState, loading: bool): (r: ChatState)
    ensures r.isLoading == loading
    ensures r.messages == s.messages && r.hasInteracted == s.hasInteracted
  {
    s.(isLoading := loading)
  }

  /** Marking twice is the same as marking once. */
  lemma MarkIdempotent(s: ChatState)
    ensures MarkAsInteracted(MarkAsInteracted(s)) == MarkAsInteracted(s)
  {
  }

  /**
   * Ids of messages added at different instants differ, and so do the ids
   * of a visitor's and a bot's message, whenever they were added.
   */
  lemma IdsDistinct(r1: Role, r2: Role, t1: nat, t2: nat)
    requires r1 != r2 || t1 != t2
    ensures MessageId(r1, t1) != MessageId(r2, t2)
  {
    var a := MessageId(r1, t1);
    var b := MessageId(r2, t2);
    if r1 != r2 {
      assert a[0] != b[0];
    } else if a == b {
      var p := IdPrefix(r1);
      assert a[|p|..] == Decimal(t1);
      assert b[|p|..] == Decimal(t2);
      DecimalInjective(t1, t2);
    }
  }

  /** Two messages of the same role added in the same millisecond get the same id. */
  lemma SameInstantCollides(s: ChatState, c1: string, c2: string, now: nat)
    ensures AddUserMessage(AddUserMessage(s, c1, now).0, c2, now).1.id == AddUserMessage(s, c1, now).1.id
  {
  }

  /** What the landing page does to the log. */
  datatype Action = AddUser(content: string, now: nat) | AddBot(content: string, now: nat) | Mark | Loading(on: bool)

  function Apply(s: ChatState, a: Action): ChatState {
    match a
    case AddUser(c, t) => AddUserMessage(s, c, t).0
    case AddBot(c, t) => AddBotMessage(s, c, t).0
    case Mark => MarkAsInteracted(s)
    case Loading(on) => SetIsLoading(s, on)
  }

  function ApplyAll(s: ChatState, actions: seq<Action>): ChatState
    decreases |actions|
  {
    if actions == [] then s else ApplyAll(Apply(s, actions[0]), actions[1..])
  }

  /** How many of the actions append a message. */
  function Appends(actions: seq<Action>): nat {
    if actions == [] then 0
    else (if actions[0].AddUser? || actions[0].AddBot? then 1 else 0) + Appends(actions[1..])
  }

  /** The message one action appends, if it is an append, as it is created. */
  function Created(a: Action): seq<Message> {
    match a
    case AddUser(c, t) => [Message(MessageId(User, t), User, c, t)]
    case AddBot(c, t) => [Message(MessageId(Bot, t), Bot, c, t)]
    case _ => []
  }

  /** The messages the appends among `actions` add, in order. */
  function Appended(actions: seq<Action>): seq<Message> {
    if actions == [] then [] else Created(actions[0]) + Appended(actions[1..])
  }

  /**
   * The log is append-only: whatever happens, the earlier messages stay in
   * place, in order, and the log grows by exactly one message per append.
   * Once set, the interaction flag stays set.
   */
  lemma {:induction false} LogAppendOnly(s: ChatState, actions: seq<Action>)
    ensures |ApplyAll(s, actions).messages| == |s.messages| + Appends(actions)
    ensures ApplyAll(s, actions).messages[..|s.messages|] == s.messages
    ensures s.hasInteracted ==> ApplyAll(s, actions).hasInteracted
    decreases |actions|
  {
    if actions != [] {
      var next := Apply(s, actions[0]);
      LogAppendOnly(next, actions[1..]);
      assert next.messages[..|s.messages|] == s.messages;
      var final := ApplyAll(s, actions).messages;
      assert final[..|next.messages|][..|s.messages|] == final[..|s.messages|];
    }
  }

  /**
   * After any sequence of actions the log is the earlier log followed by
   * one message per append, in order, with that append's role, content,
   * time and id.
   */
  lemma {:induction false} LogIsAppended(s: ChatState, actions: seq<Action>)
    ensures ApplyAll(s, actions).messages == s.messages + Appended(actions)
    decreases |actions|
  {
    if actions != [] {
      var next := Apply(s, actions[0]);
      LogIsAppended(next, actions[1..]);
      ApplyAppends(s, actions[0]);
      assert s.messages + Appended(actions) == s.messages + Created(actions[0]) + Appended(actions[1..]);
    }
  }

  /** One action adds to the log exactly what `Created` lists for it. */
  lemma ApplyAppends(s: ChatState, a: Action)
    ensures Apply(s, a).messages == s.messages + Created(a)
  {
    match a
    case AddUser(c, t) =>
    case AddBot(c, t) =>
    case Mark => assert s.messages + [] == s.messages;
    case Loading(on) => assert s.messages + [] == s.messages;
  }

  /** The interaction flag ends up set exactly when it was set already or some action marks it. */
  lemma {:induction false} InteractedIffMarked(s: ChatState, actions: seq<Action>)
    ensures ApplyAll(s, actions).hasInteracted <==> s.hasInteracted || Mark in actions
    decreases |actions|
  {
    if actions != [] {
      InteractedIffMarked(Apply(s, actions[0]), actions[1..]);
      assert Mark in actions <==> actions[0] == Mark || Mark in actions[1..];
    }
  }

  /**
   * From the hook's initial state, the log holds exactly one message per
   * append, namely the appended messages in order, and the visitor counts
   * as having interacted exactly when some action marked it.
   */
  lemma FromInitialChat(actions: seq<Action>)
    ensures |ApplyAll(InitialChat, actions).messages| == Appends(actions)
    ensures ApplyAll(InitialChat, actions).messages == Appended(actions)
    ensures ApplyAll(InitialChat, actions).hasInteracted <==> Mark in actions
  {
    LogAppendOnly(InitialChat, actions);
    LogIsAppended(InitialChat, actions);
    assert InitialChat.messages + Appended(actions) == Appended(actions);
    InteractedIffMarked(InitialChat, actions);
  }
}

=== FILE: demo_chat.dfy ===
/**
 * The public demo endpoint: choose the client key, count the request
 * against the rate limiter, validate the question, strip HTML tags from it
 * and hand it, with the fixed demo FAQs, to answer generation.
 */
module DemoChat {
  import opened Wrappers
  import opened JsText
  import opened Http
  import opened RateLimit
  import Types

  /** One of the fixed FAQs the demo answers from. */
  datatype DemoFaq = DemoFaq(category: string, question: string, answer: string)

  const DemoFaqs: seq<DemoFaq> := [
    DemoFaq("สินค้า", "สินค้ามีสต็อกไหม",
      "สินค้าทุกรายการมีสต็อกพร้อมส่งค่ะ " + "สามารถสั่งซื้อได้เลยค่ะ"),
    DemoFaq("การจัดส่ง", "จัดส่งใช้เวลากี่วัน",
      "จัดส่งภายใน 2-3 วันทำการค่ะ " + "ในกรุงเทพและปริมณฑล 1-2 วันค่ะ"),
    DemoFaq("ราคา", "ราคาสินค้า",
      "ราคาเริ่มต้น 299 บาทค่ะ " + "สำหรับสมาชิกลด 10% ค่ะ"),
    DemoFaq("โปรโมชั่น", "มีโปรโมชั่นอะไร",
      "ตอนนี้มีโปรโมชั่นซื้อ 2 แถม 1 " + "และฟรีค่าจัดส่งเมื่อซื้อครบ 500 บาทค่ะ")
  ]

  /** The demo always answers in the friendly tone, for a fixed shop. */
  const DemoTone: Types.Tone := Types.Friendly
  const DemoShopName: string := "Demo Shop"
  const DemoInstructions: string :=
    "คุณกำลังแสดงตัวอย่างการทำงานของระบบ Narada "
    + "ให้กับผู้มาเยือนเว็บไซต์ "
    + "กรุณาตอบอย่างเป็นมิตรและน่าสนใจ "
    + "เพื่อแสดงความสามารถของระบบ"

  const RateLimitedError: string := "กรุณารอสักครู่ก่อนส่งคำถามใหม่ค่ะ"
  const MissingQuestionError: string := "กรุณาใส่คำถามค่ะ"
  const ReplyFailedError: string := "เกิดข้อผิดพลาดในการตอบกลับค่ะ " + "กรุณาลองใหม่อีกครั้งค่ะ"

  /** The pieces of one demo FAQ's context block. */
  function DemoBlockParts(f: DemoFaq): seq<string> {
    ["หมวดหมู่: ", f.category, "\nคำถาม: ", f.question, "\nคำตอบ: ", f.answer]
  }

  /** The FAQ context of the demo: one block per FAQ, in order, blank-line separated. */
  function DemoContext(faqs: seq<DemoFaq>): string {
    Join(seq(|faqs|, i requires 0 <= i < |faqs| => Concat(DemoBlockParts(faqs[i]))), "\n\n")
  }

  /**
   * Adding one demo FAQ at the end adds its block after a blank line;
   * everything before it is unchanged, so blocks keep the input order.
   */
  lemma DemoContextAppend(faqs: seq<DemoFaq>, f: DemoFaq)
    ensures DemoContext(faqs + [f])
      == if faqs == [] then Concat(DemoBlockParts(f)) else DemoContext(faqs) + "\n\n" + Concat(DemoBlockParts(f))
  {
    var blocks := seq(|faqs|, i requires 0 <= i < |faqs| => Concat(DemoBlockParts(faqs[i])));
    var all := faqs + [f];
    assert seq(|all|, i requires 0 <= i < |all| => Concat(DemoBlockParts(all[i])))
      == blocks + [Concat(DemoBlockParts(f))];
    if faqs != [] {
      JoinAppend(blocks, Concat(DemoBlockParts(f)), "\n\n");
    }
  }

  /** Every demo FAQ's category, question and answer appear in the context. */
  lemma DemoContextMentions(faqs: seq<DemoFaq>, i: nat)
    requires i < |faqs|
    ensures IsSubstring(faqs[i].category, DemoContext(faqs))
    ensures IsSubstring(faqs[i].question, DemoContext(faqs))
    ensures IsSubstring(faqs[i].answer, DemoContext(faqs))
  {
    var blocks := seq(|faqs|, i requires 0 <= i < |faqs| => Concat(DemoBlockParts(faqs[i])));
    var parts := DemoBlockParts(faqs[i]);
    JoinContains(blocks, "\n\n", i);
    ConcatContains(parts, 1);
    SubstringTransitive(faqs[i].category, blocks[i], DemoContext(faqs));
    ConcatContains(parts, 3);
    SubstringTransitive(faqs[i].question, blocks[i], DemoContext(faqs));
    ConcatContains(parts, 5);
    SubstringTransitive(faqs[i].answer, blocks[i], DemoContext(faqs));
  }

  /** The request headers the key is chosen from; an absent header is None. */
  datatype Headers = Headers(forwardedFor: Option<string>, realIp: Option<string>)

  /**
   * `x-forwarded-for || x-real-ip || "unknown"`: the first header that is
   * present and non-empty, so the key is never empty.
   */
  function ClientKey(h: Headers): (k: string)
    ensures k != ""
    ensures h.forwardedFor.Some? && h.forwardedFor.value != "" ==> k == h.forwardedFor.value
    ensures (h.forwardedFor.None? || h.forwardedFor.value == "") && h.realIp.Some? && h.realIp.value != ""
      ==> k == h.realIp.value
    ensures (h.forwardedFor.None? || h.forwardedFor.value == "") && (h.realIp.None? || h.realIp.value == "")
      ==> k == "unknown"
  {
    if h.forwardedFor.Some? && h.forwardedFor.value != "" then h.forwardedFor.value
    else if h.realIp.Some? && h.realIp.value != "" then h.realIp.value
    else "unknown"
  }

  /** No `<` is followed, anywhere later, by a `>`: nothing the tag pattern could match. */
  predicate IsTagFree(s: string) {
    forall i, j :: 0 <= i < j < |s| && s[i] == '<' ==> s[j] != '>'
  }

  /**
   * `s.replace(/<[^>]*>/g, "")`: scanning left to right, each `<` that has a
   * `>` somewhere after it is removed together with everything up to the
   * first such `>`; scanning resumes after it.
   */
  function StripTags(s: string): (r: string)
    ensures |r| <= |s|
    ensures forall k :: 0 <= k < |r| ==> r[k] in s
    ensures IsTagFree(r)
    decreases |s|
  {
    if |s| == 0 then ""
    else if s[0] == '<' && '>' in s[1..] then
      StripTags(s[1..][FirstIndex(s[1..], '>') + 1..])
    else
      var rest := StripTags(s[1..]);
      assert forall k :: 0 <= k < |rest| ==> rest[k] in s[1..];
      [s[0]] + rest
  }

  /** A string is left unchanged by the stripper exactly when it is tag-free. */
  lemma {:induction false} StripTagsFixpoint(s: string)
    ensures StripTags(s) == s <==> IsTagFree(s)
    decreases |s|
  {
    if IsTagFree(s) && |s| > 0 {
      assert IsTagFree(s[1..]) by {
        forall i, j | 0 <= i < j < |s[1..]| && s[1..][i] == '<'
          ensures s[1..][j] != '>'
        {
          assert s[i + 1] == '<';
        }
      }
      StripTagsFixpoint(s[1..]);
    }
  }

  /** A tag at the very start is dropped whole. */
  lemma StripTagAtStart(y: string, z: string)
    requires '>' !in y
    ensures StripTags("<" + y + ">" + z) == StripTags(z)
  {
    var s := "<" + y + ">" + z;
    assert s[0] == '<';
    assert s[1..] == y + ['>'] + z;
    FirstIndexAfter(y, '>', z);
    assert s[1..][|y| + 1..] == z;
  }

  /** A first character other than `<` is kept. */
  lemma StripKeepsHead(c: char, t: string)
    requires c != '<'
    ensures StripTags([c] + t) == [c] + StripTags(t)
  {
    assert ([c] + t)[0] == c && ([c] + t)[1..] == t;
  }

  /** Regrouping the pieces around a tag. */
  lemma TagSplit(x: string, y: string, z: string)
    ensures x + "<" + y + ">" + z == x + ("<" + y + ">" + z)
  {
  }

  /** Regrouping a concatenation around its first character. */
  lemma ConsSplit(x: string, w: string)
    requires x != []
    ensures x + w == [x[0]] + (x[1..] + w)
  {
    assert x == [x[0]] + x[1..];
  }

  /** Text without `<` is kept as it is, whatever follows it. */
  lemma {:induction false} StripPlainPrefix(x: string, w: string)
    requires '<' !in x
    ensures StripTags(x + w) == x + StripTags(w)
    decreases |x|
  {
    if x == [] {
      assert x + w == w;
    } else {
      var c, u := x[0], x[1..];
      ConsSplit(x, w);
      ConsSplit(x, StripTags(w));
      assert c != '<' && '<' !in u by {
        assert x == [c] + u;
      }
      StripKeepsHead(c, u + w);
      StripPlainPrefix(u, w);
    }
  }

  /**
   * The first tag is removed and the text before it kept: with no `<` in
   * `x` and no `>` in `y`, the match starts at the `<` after `x` and ends at
   * the first `>` after it, and the scan resumes with `z`.
   */
  lemma StripFirstTag(x: string, y: string, z: string)
    requires '<' !in x && '>' !in y
    ensures StripTags(x + "<" + y + ">" + z) == x + StripTags(z)
  {
    TagSplit(x, y, z);
    StripPlainPrefix(x, "<" + y + ">" + z);
    StripTagAtStart(y, z);
  }

  /** Stripping twice is stripping once. */
  lemma StripTagsIdempotent(s: string)
    ensures StripTags(StripTags(s)) == StripTags(s)
  {
    StripTagsFixpoint(StripTags(s));
  }

  lemma TagFreeSlice(s: string, i: int, j: int)
    requires IsTagFree(s) && 0 <= i <= j <= |s|
    ensures IsTagFree(s[i..j])
  {
    forall a, b | 0 <= a < b < j - i && s[i..j][a] == '<'
      ensures s[i..j][b] != '>'
    {
      assert s[i + a] == '<';
    }
  }

  /**
   * The sanitised question: the stripped text with the whitespace at both
   * ends removed and nothing else; it is still tag-free.
   */
  function Sanitize(question: string): (r: string)
    ensures IsTagFree(r) && |r| <= |question|
    ensures exists i, j :: TrimmedAt(StripTags(question), r, i, j)
    ensures r == [] || (!IsJsSpace(r[0]) && !IsJsSpace(r[|r| - 1]))
    ensures r == [] <==> AllSpace(StripTags(question))
  {
    var stripped := StripTags(question);
    var r := Trim(stripped);
    var i, j :| TrimmedAt(stripped, r, i, j);
    TagFreeSlice(stripped, i, j);
    r
  }

  /**
   * `!question || typeof question !== "string" || question.trim() === ""` is
   * false: the question is a string with some non-whitespace character.
   */
  function QuestionAccepted(f: Field): (r: bool)
    ensures r <==> f.Str? && !AllSpace(f.text)
  {
    f.Str? && f.text != "" && Trim(f.text) != ""
  }

  /**
   * A question with one tag in it, and tag-free text after the tag, reaches
   * the model as the text around the tag, trimmed.
   */
  lemma SanitizeOneTag(x: string, y: string, z: string)
    requires '<' !in x && '>' !in y && IsTagFree(z)
    ensures Sanitize(x + "<" + y + ">" + z) == Trim(x + z)
  {
    StripFirstTag(x, y, z);
    StripTagsFixpoint(z);
  }

  /** What the endpoint decides to do with one request. */
  datatype DemoOutcome =
    | TooManyRequests
    | BadRequest
    | ServerError
    | Generate(question: string, faqContext: string, tone: Types.Tone, shopName: string, customInstructions: string)

  datatype DemoStep = DemoStep(outcome: DemoOutcome, limiter: Limiter)

  /**
   * Handles one request at `now`. The rate limit is checked before the body
   * is looked at, so a request with a bad body still uses up quota.
   */
  function HandleDemo(m: Limiter, h: Headers, body: Body, now: int): (r: DemoStep)
    ensures var c := CheckRateLimit(m, ClientKey(h), now);
      && r.limiter == c.limiter
      && (r.outcome == TooManyRequests <==> !c.allowed)
      && (r.outcome == ServerError <==> c.allowed && !body.JsonValue?)
      && (r.outcome == BadRequest <==> c.allowed && body.JsonValue? && !QuestionAccepted(body.question))
      && (r.outcome.Generate? <==> c.allowed && body.JsonValue? && QuestionAccepted(body.question))
    ensures r.outcome.Generate? ==>
      && r.outcome.question == Sanitize(body.question.text)
      && r.outcome.faqContext == DemoContext(DemoFaqs)
      && r.outcome.tone == DemoTone
      && r.outcome.shopName == DemoShopName
      && r.outcome.customInstructions == DemoInstructions
  {
    var c := CheckRateLimit(m, ClientKey(h), now);
    if !c.allowed then DemoStep(TooManyRequests, c.limiter)
    else match body
      case Unparseable => DemoStep(ServerError, c.limiter)
      case NullBody => DemoStep(ServerError, c.limiter)
      case JsonValue(q) =>
        if !QuestionAccepted(q) then DemoStep(BadRequest, c.limiter)
        else DemoStep(Generate(Sanitize(q.text), DemoContext(DemoFaqs), DemoTone, DemoShopName, DemoInstructions), c.limiter)
  }

  /** The body never influences the rate limiter: valid and invalid requests count alike. */
  lemma QuotaIgnoresBody(m: Limiter, h: Headers, b1: Body, b2: Body, now: int)
    ensures HandleDemo(m, h, b1, now).limiter == HandleDemo(m, h, b2, now).limiter
  {
  }

  /** Whitespace holds no `<`, so no tag either. */
  lemma SpaceIsTagFree(s: string)
    requires AllSpace(s)
    ensures '<' !in s && IsTagFree(s)
  {
    forall k | 0 <= k < |s| ensures s[k] != '<' {
      assert IsJsSpace(s[k]);
    }
  }

  /**
   * A question made only of one tag, with any whitespace around it, passes
   * validation yet sanitises to the empty string, which is what answer
   * generation then receives.
   */
  lemma TagOnlyQuestion(m: Limiter, h: Headers, now: int, a: string, y: string, b: string)
    requires CheckRateLimit(m, ClientKey(h), now).allowed
    requires AllSpace(a) && AllSpace(b) && '>' !in y
    ensures HandleDemo(m, h, JsonValue(Str(a + "<" + y + ">" + b)), now).outcome
      == Generate("", DemoContext(DemoFaqs), DemoTone, DemoShopName, DemoInstructions)
  {
    var q := a + "<" + y + ">" + b;
    assert !AllSpace(q) by {
      assert q[|a|] == '<';
    }
    SpaceIsTagFree(a);
    SpaceIsTagFree(b);
    SanitizeOneTag(a, y, b);
    assert AllSpace(a + b) by {
      forall k | 0 <= k < |a + b| ensures IsJsSpace((a + b)[k]) {
        if k < |a| { assert (a + b)[k] == a[k]; } else { assert (a + b)[k] == b[k - |a|]; }
      }
    }
  }

  /**
   * The HTTP response: the decision's error, or the generated answer tagged
   * with the demo tone; a failed generation is a 500.
   */
  function DemoResponse(outcome: DemoOutcome, generated: Result<string, string>): (r: Response)
    ensures StatusOf(r) == 429 <==> outcome == TooManyRequests
    ensures StatusOf(r) == 400 <==> outcome == BadRequest
    ensures StatusOf(r) == 200 <==> outcome.Generate? && generated.Ok?
    ensures StatusOf(r) == 500 <==> outcome == ServerError || (outcome.Generate? && generated.Err?)
    ensures r.Answered? ==> r == Answered(generated.value, Some(Types.ToneKey(DemoTone)))
    ensures outcome == TooManyRequests ==> r == Failure(429, RateLimitedError)
    ensures outcome == BadRequest ==> r == Failure(400, MissingQuestionError)
    ensures StatusOf(r) == 500 ==> r == Failure(500, ReplyFailedError)
  {
    match outcome
    case TooManyRequests => Failure(429, RateLimitedError)
    case BadRequest => Failure(400, MissingQuestionError)
    case ServerError => Failure(500, ReplyFailedError)
    case Generate(_, _, _, _, _) =>
      if generated.Ok? then Answered(generated.value, Some(Types.ToneKey(DemoTone)))
      else Failure(500, ReplyFailedError)
  }
}

=== FILE: env_parse.dfy ===
/**
 * The `.env.local` readers of the maintenance scripts. Four scripts share
 * one line-by-line parser driven by the pattern `^([^#=]+)=(.*)$`; the
 * reset script has its own parser built on `trim` and `split`. The file
 * contents (or a failed read) and the process environment are parameters.
 */
module EnvParse {
  import opened Wrappers
  import opened JsText

  /** Environment variables by name. */
  type Env = map<string, string>

  const UrlVar: string := "NEXT_PUBLIC_SUPABASE_URL"
  const AnonKeyVar: string := "NEXT_PUBLIC_SUPABASE_ANON_KEY"

  /** The message printed before exiting with status 1. */
  const MissingCredentials: string := "❌ Missing Supabase credentials in .env.local"
  /** The user-listing script prints the same message without the mark. */
  const MissingCredentialsPlain: string := "Missing Supabase credentials in .env.local"

  predicate NoLineTerminator(s: string) {
    forall k :: 0 <= k < |s| ==> !IsLineTerminator(s[k])
  }

  /** The two capture groups of a successful match. */
  datatype Captures = Captures(key: string, value: string)

  /**
   * `line.match(/^([^#=]+)=(.*)$/)`. The first group cannot hold `=`, so
   * it ends at the first `=`; it must be non-empty and free of `#`. The
   * second group runs to the end of the line, and `.` stops at line
   * terminators, so a carriage return anywhere after the `=` means no match.
   */
  function MatchLine(line: string): (r: Option<Captures>)
    ensures r.Some? ==> line == r.value.key + "=" + r.value.value
    ensures r.Some? ==> r.value.key != [] && '#' !in r.value.key && '=' !in r.value.key
    ensures r.Some? ==> NoLineTerminator(r.value.value)
  {
    if '=' !in line then None
    else
      var i := FirstIndex(line, '=');
      if i > 0 && '#' !in line[..i] && NoLineTerminator(line[i + 1..]) then
        assert line == line[..i] + "=" + line[i + 1..];
        Some(Captures(line[..i], line[i + 1..]))
      else None
  }

  /** The pattern matches exactly the lines of the form `key=value` it describes. */
  lemma MatchLineIff(line: string, key: string, value: string)
    ensures MatchLine(line) == Some(Captures(key, value)) <==>
      && line == key + "=" + value
      && key != [] && '#' !in key && '=' !in key
      && NoLineTerminator(value)
  {
    if line == key + "=" + value && key != [] && '#' !in key && '=' !in key && NoLineTerminator(value) {
      FirstIndexAfter(key, '=', value);
      assert line[..|key|] == key;
      assert line[|key| + 1..] == value;
    }
  }

  /** One variable assignment read from a line. */
  datatype Entry = Entry(name: string, value: string)

  /**
   * Reads a file's lines in order with a per-line reader, each later
   * assignment overriding earlier ones. Both parsers are such a fold.
   */
  function Fold(lines: seq<string>, read: string -> Option<Entry>): Env
    decreases |lines|
  {
    if lines == [] then map[]
    else
      var env := Fold(lines[..|lines| - 1], read);
      match read(lines[|lines| - 1])
      case None => env
      case Some(e) => env[e.name := e.value]
  }

  /** Line `i` assigns `k` and no later line does. */
  predicate LastAssignment(lines: seq<string>, read: string -> Option<Entry>, k: string, i: int) {
    && 0 <= i < |lines|
    && read(lines[i]).Some? && read(lines[i]).value.name == k
    && forall j :: i < j < |lines| ==> read(lines[j]).None? || read(lines[j]).value.name != k
  }

  /**
   * A variable is defined exactly when some line assigns it, and then its
   * value is the one the last such line assigns.
   */
  lemma {:induction false} FoldLastWins(lines: seq<string>, read: string -> Option<Entry>, k: string)
    ensures k in Fold(lines, read) <==> exists i :: LastAssignment(lines, read, k, i)
    ensures k in Fold(lines, read) ==>
      exists i :: LastAssignment(lines, read, k, i) && read(lines[i]).value.value == Fold(lines, read)[k]
    decreases |lines|
  {
    if lines != [] {
      var n := |lines| - 1;
      var init := lines[..n];
      FoldLastWins(init, read, k);
      if read(lines[n]).Some? && read(lines[n]).value.name == k {
        assert LastAssignment(lines, read, k, n);
      } else {
        if k in Fold(init, read) {
          var i :| LastAssignment(init, read, k, i) && read(init[i]).value.value == Fold(init, read)[k];
          LastAssignmentExtends(lines, read, k, i);
        }
        if exists i :: LastAssignment(lines, read, k, i) {
          var i :| LastAssignment(lines, read, k, i);
          LastAssignmentExtends(lines, read, k, i);
        }
      }
    }
  }

  /** When the final line does not assign `k`, the last assignment of `k` is the same with or without it. */
  lemma LastAssignmentExtends(lines: seq<string>, read: string -> Option<Entry>, k: string, i: int)
    requires lines != []
    requires read(lines[|lines| - 1]).None? || read(lines[|lines| - 1]).value.name != k
    ensures LastAssignment(lines[..|lines| - 1], read, k, i) <==> LastAssignment(lines, read, k, i)
    ensures 0 <= i < |lines| - 1 ==> lines[..|lines| - 1][i] == lines[i]
  {
  }

  /** The shared parser's line reader: a match assigns its trimmed groups. */
  function MatchedEntry(line: string): Option<Entry> {
    match MatchLine(line)
    case None => None
    case Some(c) => Some(Entry(Trim(c.key), Trim(c.value)))
  }

  /** The shared parser: the file split at `\n`, line by line. */
  function ParseEnv(content: string): Env {
    Fold(Split(content, '\n'), MatchedEntry)
  }

  /** Appending one more line to the file applies that line on top of the rest. */
  lemma ParseEnvAppendLine(content: string, line: string)
    requires '\n' !in line
    ensures ParseEnv(content + "\n" + line) == match MatchedEntry(line) case None => ParseEnv(content) case Some(e) => ParseEnv(content)[e.name := e.value]
  {
    SplitAppend(content, '\n', line);
    var lines := Split(content, '\n') + [line];
    assert lines[..|lines| - 1] == Split(content, '\n');
  }

  /** A value keeps every `=` and `#` after the first `=`; only the ends are trimmed. */
  lemma ValueKeepsLaterSigns()
    ensures MatchLine("A=b=c#d") == Some(Captures("A", "b=c#d"))
  {
    assert "A=b=c#d" == "A" + "=" + "b=c#d";
    assert NoLineTerminator("b=c#d") by {
      forall k | 0 <= k < 5 ensures !IsLineTerminator("b=c#d"[k]) {
      }
    }
    MatchLineIff("A=b=c#d", "A", "b=c#d");
  }

  /** A line ending in a carriage return, as every line of a CRLF file does, defines nothing. */
  lemma CarriageReturnDropsLine(key: string, value: string)
    requires key != [] && '#' !in key && '=' !in key
    ensures MatchLine(key + "=" + value + "\r") == None
  {
    var line := key + "=" + value + "\r";
    assert line == key + "=" + (value + "\r");
    FirstIndexAfter(key, '=', value + "\r");
    assert line[|key| + 1..] == value + "\r";
    assert !NoLineTerminator(value + "\r") by {
      assert (value + "\r")[|value|] == '\r';
    }
  }

  /** Comment lines, commented-out assignments and lines without `=` define nothing. */
  lemma CommentsAndBareLinesDropped(line: string)
    requires ('=' !in line) || (line != [] && line[0] == '#') || (line != [] && line[0] == '=')
    ensures MatchLine(line) == None
  {
    if '=' in line && line[0] == '#' {
      var i := FirstIndex(line, '=');
      if i > 0 {
        assert line[..i][0] == '#';
      }
    }
  }

  /** The two credentials the clients need. */
  datatype Credentials = Credentials(url: string, anonKey: string)

  /** `!url || !key` aborts: both must be present and non-empty. */
  function RequireCredentials(url: Option<string>, anonKey: Option<string>, message: string): (r: Result<Credentials, string>)
    ensures r.Ok? <==> url.Some? && url.value != "" && anonKey.Some? && anonKey.value != ""
    ensures r.Ok? ==> r.value == Credentials(url.value, anonKey.value)
    ensures r.Err? ==> r.error == message
  {
    if url.None? || url.value == "" || anonKey.None? || anonKey.value == "" then Err(message)
    else Ok(Credentials(url.value, anonKey.value))
  }

  function Lookup(env: Env, k: string): (r: Option<string>)
    ensures r.Some? <==> k in env
    ensures r.Some? ==> r.value == env[k]
  {
    if k in env then Some(env[k]) else None
  }

  /** The registration test, the direct user creation and the user listing: parse, then require both. */
  function ScriptCredentials(content: string, message: string): (r: Result<Credentials, string>)
    ensures r.Ok? <==>
      && UrlVar in ParseEnv(content) && ParseEnv(content)[UrlVar] != ""
      && AnonKeyVar in ParseEnv(content) && ParseEnv(content)[AnonKeyVar] != ""
    ensures r.Ok? ==> r.value == Credentials(ParseEnv(content)[UrlVar], ParseEnv(content)[AnonKeyVar])
    ensures r.Err? ==> r.error == message
  {
    var env := ParseEnv(content);
    RequireCredentials(Lookup(env, UrlVar), Lookup(env, AnonKeyVar), message)
  }

  /** The user verification script reads the same two variables but never aborts. */
  function VerifyUserCredentials(content: string): (r: (Option<string>, Option<string>))
    ensures r.0.Some? <==> UrlVar in ParseEnv(content)
    ensures r.1.Some? <==> AnonKeyVar in ParseEnv(content)
    ensures r.0.Some? ==> r.0.value == ParseEnv(content)[UrlVar]
    ensures r.1.Some? ==> r.1.value == ParseEnv(content)[AnonKeyVar]
  {
    var env := ParseEnv(content);
    (Lookup(env, UrlVar), Lookup(env, AnonKeyVar))
  }

  /**
   * Where the other scripts stop, the verification script goes on with
   * missing values: on an empty file the registration test and the direct
   * user creation print the marked message, the user listing the plain one.
   */
  lemma VerifyUserDoesNotAbort()
    ensures ScriptCredentials("", MissingCredentials) == Err(MissingCredentials)
    ensures ScriptCredentials("", MissingCredentialsPlain) == Err(MissingCredentialsPlain)
    ensures VerifyUserCredentials("") == (None, None)
  {
    assert Split("", '\n') == [""];
    assert MatchLine("") == None;
    assert [""][..0] == [];
  }

  /**
   * The reset script's line reader: the line is trimmed, blank lines and
   * comments are skipped, the name is the text before the first `=` and
   * the value everything after it, both kept untrimmed.
   */
  function ResetEntry(line: string): (r: Option<Entry>)
    ensures r.None? <==> AllSpace(line) || Trim(line)[0] == '#'
  {
    var t := Trim(line);
    if t == "" || t[0] == '#' then None
    else
      var parts := Split(t, '=');
      Some(Entry(parts[0], Join(parts[1..], "=")))
  }

  /**
   * What the reset parser reads from a line it keeps: with an `=`, the
   * name and value put back together around the first `=` are the trimmed
   * line; without one, the whole trimmed line is the name and the value is
   * empty.
   */
  lemma ResetEntryParts(line: string)
    requires ResetEntry(line).Some?
    ensures var e := ResetEntry(line).value;
      && '=' !in e.name
      && ('=' in Trim(line) ==> e.name + "=" + e.value == Trim(line))
      && ('=' !in Trim(line) ==> e.name == Trim(line) && e.value == "")
  {
    var t := Trim(line);
    var parts := Split(t, '=');
    JoinSplit(t, '=');
    if '=' !in t {
      SplitNoSeparator(t, '=');
    }
  }

  /** `loadEnv`: a failed read prints an error and yields no variables. */
  function LoadEnv(read: Option<string>): (r: Env)
    ensures read.None? ==> r == map[]
  {
    match read
    case None => map[]
    case Some(content) => Fold(Split(content, '\n'), ResetEntry)
  }

  /**
   * A readable file defines a variable exactly when some kept line names
   * it, and then with the value of the last such line.
   */
  lemma LoadEnvLastWins(content: string, k: string)
    ensures var lines := Split(content, '\n');
      k in LoadEnv(Some(content)) <==> exists i :: LastAssignment(lines, ResetEntry, k, i)
    ensures var lines := Split(content, '\n');
      k in LoadEnv(Some(content)) ==>
        exists i :: LastAssignment(lines, ResetEntry, k, i) && ResetEntry(lines[i]).value.value == LoadEnv(Some(content))[k]
  {
    FoldLastWins(Split(content, '\n'), ResetEntry, k);
  }

  /** `k` is defined with a non-empty value, so `env.k` is truthy. */
  predicate HasValue(env: Env, k: string) {
    k in env && env[k] != ""
  }

  /** `env.X || process.env.X`: the file's value unless it is absent or empty. */
  function FileOrProcess(env: Env, processEnv: Env, k: string): (r: Option<string>)
    ensures k in env && env[k] != "" ==> r == Some(env[k])
    ensures !(k in env && env[k] != "") ==> r == Lookup(processEnv, k)
  {
    if k in env && env[k] != "" then Some(env[k]) else Lookup(processEnv, k)
  }

  /**
   * The reset script's credentials: each variable from the file when it is
   * set there, otherwise from the process environment; the script goes on
   * exactly when both end up set.
   */
  function ResetCredentials(read: Option<string>, processEnv: Env): (r: Result<Credentials, string>)
    ensures read.None? ==> r == RequireCredentials(Lookup(processEnv, UrlVar), Lookup(processEnv, AnonKeyVar), MissingCredentials)
    ensures var env := LoadEnv(read);
      r.Ok? <==> (HasValue(env, UrlVar) || HasValue(processEnv, UrlVar)) && (HasValue(env, AnonKeyVar) || HasValue(processEnv, AnonKeyVar))
    ensures r.Err? ==> r.error == MissingCredentials
    ensures var env := LoadEnv(read);
      HasValue(env, UrlVar) && r.Ok? ==> r.value.url == env[UrlVar]
    ensures var env := LoadEnv(read);
      HasValue(env, AnonKeyVar) && r.Ok? ==> r.value.anonKey == env[AnonKeyVar]
    ensures var env := LoadEnv(read);
      !HasValue(env, UrlVar) && r.Ok? ==> Lookup(processEnv, UrlVar) == Some(r.value.url)
    ensures var env := LoadEnv(read);
      !HasValue(env, AnonKeyVar) && r.Ok? ==> Lookup(processEnv, AnonKeyVar) == Some(r.value.anonKey)
  {
    var env := LoadEnv(read);
    RequireCredentials(FileOrProcess(env, processEnv, UrlVar), FileOrProcess(env, processEnv, AnonKeyVar), MissingCredentials)
  }

  /** The shared parser assigns the trimmed text on either side of the first `=`. */
  lemma SharedParserReads(key: string, value: string)
    requires key != [] && '#' !in key && '=' !in key && NoLineTerminator(value)
    ensures MatchedEntry(key + "=" + value) == Some(Entry(Trim(key), Trim(value)))
  {
    MatchLineIff(key + "=" + value, key, value);
  }

  /**
   * The reset parser assigns the text on either side of the first `=` as
   * it stands, when the line has no surrounding whitespace to trim.
   */
  lemma ResetParserReads(key: string, value: string)
    requires key != [] && '=' !in key && key[0] != '#' && !IsJsSpace(key[0])
    requires value == [] || !IsJsSpace(value[|value| - 1])
    ensures ResetEntry(key + "=" + value) == Some(Entry(key, value))
  {
    AssignmentUntrimmed(key, value);
    AssignmentSplits(key, value);
    ResetEntryOfTrimmed(key + "=" + value);
  }

  /** `key=value` with no whitespace at its ends is its own trim and does not start with `#`. */
  lemma AssignmentUntrimmed(key: string, value: string)
    requires key != [] && key[0] != '#' && !IsJsSpace(key[0])
    requires value == [] || !IsJsSpace(value[|value| - 1])
    ensures var line := key + "=" + value;
      line != [] && Trim(line) == line && line[0] != '#'
  {
    AssignmentEnds(key, value);
    TrimOfTrimmed(key + "=" + value);
  }

  /** Splitting `key=value` at `=` and joining the rest back gives the key and the value. */
  lemma AssignmentSplits(key: string, value: string)
    requires '=' !in key
    ensures var parts := Split(key + "=" + value, '=');
      parts[0] == key && Join(parts[1..], "=") == value
  {
    SplitAtFirst(key, '=', value);
    JoinSplit(value, '=');
  }

  /** A non-blank line with nothing to trim and no leading `#` is read as it stands. */
  lemma ResetEntryOfTrimmed(line: string)
    requires line != [] && Trim(line) == line && line[0] != '#'
    ensures ResetEntry(line) == Some(Entry(Split(line, '=')[0], Join(Split(line, '=')[1..], "=")))
  {
  }

  /** A line `key=value` starts with the key's first character and ends with the value's last, or `=`. */
  lemma AssignmentEnds(key: string, value: string)
    requires key != []
    ensures var line := key + "=" + value;
      && line[0] == key[0]
      && line[|line| - 1] == if value == [] then '=' else value[|value| - 1]
  {
  }

  /**
   * The two parsers disagree on spacing: for `K = v` the shared parser
   * assigns `v` to `K`, the reset parser assigns ` v` to `K `.
   */
  lemma ParsersDisagreeOnSpaces(k: string, v: string)
    requires k != [] && '#' !in k && '=' !in k && !IsJsSpace(k[0]) && !IsJsSpace(k[|k| - 1])
    requires v != [] && NoLineTerminator(v) && !IsJsSpace(v[0]) && !IsJsSpace(v[|v| - 1])
    ensures MatchedEntry(k + " = " + v) == Some(Entry(k, v))
    ensures ResetEntry(k + " = " + v) == Some(Entry(k + " ", " " + v))
  {
    var key := k + " ";
    var value := " " + v;
    assert k + " = " + v == key + "=" + value;
    assert '#' !in key && '=' !in key && key[0] == k[0];
    assert NoLineTerminator(value) by {
      assert forall i :: 1 <= i < |value| ==> value[i] == v[i - 1];
    }
    assert Trim(key) == k by {
      TrimPadded("", k, " ");
      assert "" + k + " " == key;
    }
    assert Trim(value) == v by {
      TrimPadded(" ", v, "");
      assert " " + v + "" == value;
    }
    SharedParserReads(key, value);
    assert value[|value| - 1] == v[|v| - 1];
    ResetParserReads(key, value);
  }

  /** Unlike the shared parser, the reset parser reads a CRLF line: trimming drops the `\r`. */
  lemma CarriageReturnKeptByReset(key: string, value: string)
    requires key != [] && '=' !in key && key[0] != '#' && !IsJsSpace(key[0])
    requires value == [] || !IsJsSpace(value[|value| - 1])
    ensures ResetEntry(key + "=" + value + "\r") == Some(Entry(key, value))
  {
    var line := key + "=" + value;
    assert Trim(line + "\r") == line by {
      AssignmentEnds(key, value);
      TrimPadded("", line, "\r");
      assert "" + line + "\r" == line + "\r";
    }
    assert Trim(line) == line by {
      TrimOfTrimmed(line);
    }
    ResetParserReads(key, value);
  }

  /**
   * The reset parser reads every line ending in a carriage return, as each
   * line of a CRLF file does, exactly as it reads the line without it.
   */
  lemma CarriageReturnIgnoredByReset(line: string)
    ensures ResetEntry(line + "\r") == ResetEntry(line)
  {
    TrimAppendSpace(line, '\r');
  }
}

=== FILE: generate_route.dfy ===
/**
 * The authenticated answer endpoint, as a pure decision over the outcomes
 * of its steps: the parsed body, the session lookup, the settings lookup
 * and the FAQ table read. The first failing step decides the status.
 */
module GenerateRoute {
  import opened Wrappers
  import opened JsText
  import opened Http
  import opened Types

  /** The session lookup: an error, no user, or the signed-in user's id. */
  datatype Auth = AuthFailed | NoUser | SignedIn(userId: string)

  /** The single settings row of the user, or the lookup error. */
  datatype SettingsLookup = SettingsFailed | SettingsFound(row: SettingsRow)

  /** The `faqs` table as the query sees it, in the order it returns rows, or a failed read. */
  datatype FaqRead = FaqReadFailed | FaqTable(rows: seq<FaqRow>)

  const QuestionRequiredError: string := "กรุณาระบุคำถาม"
  const NoUserError: string := "ไม่พบข้อมูลผู้ใช้"
  const NoSettingsError: string := "ไม่พบการตั้งค่า"
  const GenerationError: string := "เกิดข้อผิดพลาดในการสร้างคำตอบ"
  const NoFaqsContext: string := "ไม่มี FAQ ในระบบ"

  /** The rows the query selects: the user's active FAQs, in table order. */
  function ActiveFaqsOf(rows: seq<FaqRow>, userId: string): (r: seq<FaqRow>)
    ensures |r| <= |rows|
  {
    if |rows| == 0 then []
    else if rows[0].userId == userId && rows[0].isActive then [rows[0]] + ActiveFaqsOf(rows[1..], userId)
    else ActiveFaqsOf(rows[1..], userId)
  }

  /** A row is selected exactly when it is in the table, belongs to the user and is active. */
  lemma {:induction false} ActiveFaqsMembership(rows: seq<FaqRow>, userId: string, x: FaqRow)
    ensures x in ActiveFaqsOf(rows, userId) <==> x in rows && x.userId == userId && x.isActive
  {
    if |rows| > 0 {
      ActiveFaqsMembership(rows[1..], userId, x);
      assert x in rows <==> x == rows[0] || x in rows[1..];
    }
  }

  /** Selection distributes over concatenation of tables. */
  lemma {:induction false} ActiveFaqsOfAppend(a: seq<FaqRow>, b: seq<FaqRow>, userId: string)
    ensures ActiveFaqsOf(a + b, userId) == ActiveFaqsOf(a, userId) + ActiveFaqsOf(b, userId)
  {
    if |a| == 0 {
      assert a + b == b;
    } else {
      var ab := a + b;
      assert ab[0] == a[0] && ab[1..] == a[1..] + b;
      ActiveFaqsOfAppend(a[1..], b, userId);
    }
  }

  /** The pieces of one FAQ's context block. */
  function RouteBlockParts(f: FaqRow): seq<string> {
    ["หมวด: ", f.category, "\nQ: ", f.question, "\nA: ", f.answer]
  }

  function RouteBlocks(faqs: seq<FaqRow>): (r: seq<string>)
    ensures |r| == |faqs|
  {
    seq(|faqs|, i requires 0 <= i < |faqs| => Concat(RouteBlockParts(faqs[i])))
  }

  /** The FAQ context passed on: the blocks joined by blank lines, or the no-FAQ text. */
  function RouteFaqContext(faqs: Option<seq<FaqRow>>): (r: string)
    ensures faqs.None? || faqs.value == [] ==> r == NoFaqsContext
  {
    if faqs.Some? && |faqs.value| > 0 then Join(RouteBlocks(faqs.value), "\n\n") else NoFaqsContext
  }

  /**
   * Adding one selected row at the end adds its block after a blank line;
   * everything before it is unchanged, so blocks keep the query's order.
   */
  lemma RouteFaqContextAppend(faqs: seq<FaqRow>, f: FaqRow)
    ensures RouteFaqContext(Some(faqs + [f]))
      == if faqs == [] then Concat(RouteBlockParts(f)) else RouteFaqContext(Some(faqs)) + "\n\n" + Concat(RouteBlockParts(f))
  {
    assert RouteBlocks(faqs + [f]) == RouteBlocks(faqs) + [Concat(RouteBlockParts(f))];
    if faqs != [] {
      JoinAppend(RouteBlocks(faqs), Concat(RouteBlockParts(f)), "\n\n");
    }
  }

  /** The data the FAQ query yields: null when the read failed. */
  function FaqData(read: FaqRead, userId: string): Option<seq<FaqRow>> {
    match read
    case FaqReadFailed => None
    case FaqTable(rows) => Some(ActiveFaqsOf(rows, userId))
  }

  /** What the endpoint does with one request. */
  datatype Decision =
    | Reject(status: int, error: string)
    | Generate(question: string, faqContext: string, tone: Tone, shopName: Option<string>, customInstructions: string)

  /** The decision for one request; each check runs only after the ones before it passed. */
  function Decide(body: Body, auth: Auth, settings: SettingsLookup, faqs: FaqRead): (r: Decision)
    ensures r == Reject(500, GenerationError) <==> !body.JsonValue?
    ensures r == Reject(400, QuestionRequiredError) <==> body.JsonValue? && !IsNonEmptyString(body.question)
    ensures r == Reject(401, NoUserError)
      <==> body.JsonValue? && IsNonEmptyString(body.question) && !auth.SignedIn?
    ensures r == Reject(404, NoSettingsError)
      <==> body.JsonValue? && IsNonEmptyString(body.question) && auth.SignedIn? && settings.SettingsFailed?
    ensures r.Generate? <==>
      body.JsonValue? && IsNonEmptyString(body.question) && auth.SignedIn? && settings.SettingsFound?
    ensures r.Generate? ==>
      && body.JsonValue? && auth.SignedIn? && settings.SettingsFound?
      && r.question == body.question.text
      && r.tone == settings.row.tone
      && r.shopName == settings.row.shopName
      && r.customInstructions == settings.row.customInstructions.GetOr("")
      && r.faqContext == RouteFaqContext(FaqData(faqs, auth.userId))
  {
    match body
    case Unparseable => Reject(500, GenerationError)
    case NullBody => Reject(500, GenerationError)
    case JsonValue(q) =>
      if !IsNonEmptyString(q) then Reject(400, QuestionRequiredError)
      else match auth
        case AuthFailed => Reject(401, NoUserError)
        case NoUser => Reject(401, NoUserError)
        case SignedIn(userId) =>
          match settings
          case SettingsFailed => Reject(404, NoSettingsError)
          case SettingsFound(row) =>
            Generate(q.text, RouteFaqContext(FaqData(faqs, userId)), row.tone, row.shopName,
                     row.customInstructions.GetOr(""))
  }

  /** A missing or empty question is refused before the session is even looked at. */
  lemma QuestionCheckedFirst(q: Field, a1: Auth, a2: Auth, s1: SettingsLookup, s2: SettingsLookup, f1: FaqRead, f2: FaqRead)
    requires !IsNonEmptyString(q)
    ensures Decide(JsonValue(q), a1, s1, f1) == Decide(JsonValue(q), a2, s2, f2) == Reject(400, QuestionRequiredError)
  {
  }

  /** Unlike the demo endpoint, a whitespace-only question is not refused here. */
  lemma BlankQuestionAccepted(userId: string, row: SettingsRow, faqs: FaqRead)
    ensures Decide(JsonValue(Str("  ")), SignedIn(userId), SettingsFound(row), faqs).Generate?
  {
  }

  /** A failed FAQ read is not fatal: generation goes ahead with the no-FAQ context. */
  lemma FaqReadFailureTolerated(q: string, userId: string, row: SettingsRow)
    requires q != ""
    ensures Decide(JsonValue(Str(q)), SignedIn(userId), SettingsFound(row), FaqReadFailed).Generate?
    ensures Decide(JsonValue(Str(q)), SignedIn(userId), SettingsFound(row), FaqReadFailed).faqContext == NoFaqsContext
  {
  }

  /** The context mentions the category, question and answer of every active FAQ of the user. */
  lemma ContextMentionsActiveFaqs(rows: seq<FaqRow>, userId: string, x: FaqRow)
    requires x in rows && x.userId == userId && x.isActive
    ensures var ctx := RouteFaqContext(FaqData(FaqTable(rows), userId));
      IsSubstring(x.category, ctx) && IsSubstring(x.question, ctx) && IsSubstring(x.answer, ctx)
  {
    var faqs := ActiveFaqsOf(rows, userId);
    ActiveFaqsMembership(rows, userId, x);
    var i :| 0 <= i < |faqs| && faqs[i] == x;
    var blocks := RouteBlocks(faqs);
    var parts := RouteBlockParts(x);
    var ctx := Join(blocks, "\n\n");
    assert RouteFaqContext(FaqData(FaqTable(rows), userId)) == ctx;
    JoinContains(blocks, "\n\n", i);
    ConcatContains(parts, 1);
    SubstringTransitive(x.category, blocks[i], ctx);
    ConcatContains(parts, 3);
    SubstringTransitive(x.question, blocks[i], ctx);
    ConcatContains(parts, 5);
    SubstringTransitive(x.answer, blocks[i], ctx);
  }

  /**
   * Inactive FAQs and other users' FAQs leave no trace: inserting such a row
   * anywhere in the table does not change the context.
   */
  lemma ContextIgnoresOtherRows(before: seq<FaqRow>, x: FaqRow, after: seq<FaqRow>, userId: string)
    requires !x.isActive || x.userId != userId
    ensures RouteFaqContext(FaqData(FaqTable(before + [x] + after), userId))
      == RouteFaqContext(FaqData(FaqTable(before + after), userId))
  {
    ActiveFaqsOfAppend(before + [x], after, userId);
    ActiveFaqsOfAppend(before, [x], userId);
    ActiveFaqsOfAppend(before, after, userId);
    assert ActiveFaqsOf([x], userId) == [];
    assert ActiveFaqsOf(before, userId) + [] == ActiveFaqsOf(before, userId);
  }

  /** The response: the decision's error, the answer, or 500 when generation threw. */
  function RouteResponse(d: Decision, generated: Result<string, string>): (r: Response)
    ensures d.Reject? ==> r == Failure(d.status, d.error)
    ensures d.Generate? ==> (r.Answered? <==> generated.Ok?)
    ensures r.Answered? ==> r == Answered(generated.value, None)
    ensures d.Generate? && generated.Err? ==> r == Failure(500, GenerationError)
  {
    match d
    case Reject(status, error) => Failure(status, error)
    case Generate(_, _, _, _, _) =>
      if generated.Ok? then Answered(generated.value, None) else Failure(500, GenerationError)
  }
}

=== FILE: http.dfy ===
/** The JSON request bodies and responses of the two answer endpoints. */
module Http {
  import opened Wrappers

  /** The `question` member of a parsed request body. */
  datatype Field = Missing | NonString | Str(text: string)

  /**
   * A request body as `req.json()` leaves it: not JSON at all (the call
   * throws), the JSON `null` (destructuring it throws), or a value whose
   * `question` member is read.
   */
  datatype Body = Unparseable | NullBody | JsonValue(question: Field)

  /** A JSON response: an error object with its status, or a 200 answer. */
  datatype Response = Failure(status: int, error: string) | Answered(answer: string, tone: Option<string>)

  function StatusOf(r: Response): int {
    match r
    case Failure(status, _) => status
    case Answered(_, _) => 200
  }

  /** `!question || typeof question !== "string"` is false: a non-empty string. */
  predicate IsNonEmptyString(f: Field) {
    f.Str? && f.text != ""
  }
}

=== FILE: jstext.dfy ===
/**
 * The JavaScript string built-ins the application leans on, written out:
 * `String.prototype.trim`, `split` on one character, `Array.prototype.join`,
 * `includes` (as substring search) and the decimal rendering of a
 * non-negative integer in a template literal.
 */
module JsText {

  /** The WhiteSpace and LineTerminator code points of ECMAScript, which `trim` removes. */
  predicate IsJsSpace(c: char) {
    || c == '\t' || c == '\n' || c == '\U{B}' || c == '\U{C}' || c == '\r' || c == ' '
    || c == '\U{A0}' || c == '\U{1680}' || ('\U{2000}' <= c <= '\U{200A}')
    || c == '\U{2028}' || c == '\U{2029}' || c == '\U{202F}' || c == '\U{205F}'
    || c == '\U{3000}' || c == '\U{FEFF}'
  }

  /** The LineTerminator code points: the characters a regular-expression `.` does not match. */
  predicate IsLineTerminator(c: char) {
    c == '\n' || c == '\r' || c == '\U{2028}' || c == '\U{2029}'
  }

  predicate AllSpace(s: string) {
    forall k :: 0 <= k < |s| ==> IsJsSpace(s[k])
  }

  /** `s.trimStart()`: drops leading whitespace; the result is the suffix after it. */
  function TrimStart(s: string): (r: string)
    ensures |r| <= |s| && r == s[|s| - |r|..]
    ensures AllSpace(s[..|s| - |r|])
    ensures r == [] || !IsJsSpace(r[0])
  {
    if |s| > 0 && IsJsSpace(s[0]) then
      var r := TrimStart(s[1..]);
      assert s[..|s| - |r|] == [s[0]] + s[1..][..|s| - 1 - |r|];
      r
    else
      s
  }

  /** `s.trimEnd()`: drops trailing whitespace; the result is the prefix before it. */
  function TrimEnd(s: string): (r: string)
    ensures |r| <= |s| && r == s[..|r|]
    ensures AllSpace(s[|r|..])
    ensures r == [] || !IsJsSpace(r[|r| - 1])
  {
    if |s| > 0 && IsJsSpace(s[|s| - 1]) then
      var r := TrimEnd(s[..|s| - 1]);
      assert s[|r|..] == s[..|s| - 1][|r|..] + [s[|s| - 1]];
      r
    else
      s
  }

  /** `r` is the slice `s[i..j]` and everything outside it is whitespace. */
  predicate TrimmedAt(s: string, r: string, i: int, j: int) {
    0 <= i <= j <= |s| && r == s[i..j] && AllSpace(s[..i]) && AllSpace(s[j..])
  }

  /** `s.trim()`: the slice of `s` left after removing whitespace from both ends. */
  function Trim(s: string): (r: string)
    ensures exists i, j :: TrimmedAt(s, r, i, j)
    ensures r == [] || (!IsJsSpace(r[0]) && !IsJsSpace(r[|r| - 1]))
    ensures r == [] <==> AllSpace(s)
  {
    TrimFacts(s, TrimStart(s), TrimEnd(TrimStart(s)));
    TrimEnd(TrimStart(s))
  }

  lemma TrimFacts(s: string, a: string, r: string)
    requires |a| <= |s| && a == s[|s| - |a|..] && AllSpace(s[..|s| - |a|])
    requires |r| <= |a| && r == a[..|r|] && AllSpace(a[|r|..])
    requires a == [] || !IsJsSpace(a[0])
    requires r == [] || !IsJsSpace(r[|r| - 1])
    ensures exists i, j :: TrimmedAt(s, r, i, j)
    ensures r == [] || (!IsJsSpace(r[0]) && !IsJsSpace(r[|r| - 1]))
    ensures r == [] <==> AllSpace(s)
  {
    var i := |s| - |a|;
    assert r == s[i..i + |r|];
    assert s[i + |r|..] == a[|r|..];
    assert TrimmedAt(s, r, i, i + |r|);
    if r == [] {
      assert s[..i] == s;
    } else {
      assert r[0] == a[0];
      assert !IsJsSpace(s[i]);
    }
  }

  /** Trimming a string with no whitespace at either end changes nothing. */
  lemma TrimOfTrimmed(s: string)
    requires s == [] || (!IsJsSpace(s[0]) && !IsJsSpace(s[|s| - 1]))
    ensures Trim(s) == s
  {
  }

  /** `trim` is idempotent. */
  lemma TrimIdempotent(s: string)
    ensures Trim(Trim(s)) == Trim(s)
  {
    TrimOfTrimmed(Trim(s));
  }

  /** The index of the first occurrence of `c` in `s`. */
  function FirstIndex(s: string, c: char): (i: nat)
    requires c in s
    ensures i < |s| && s[i] == c && c !in s[..i]
  {
    if s[0] == c then 0 else 1 + FirstIndex(s[1..], c)
  }

  /** In `a + [c] + b` with no `c` in `a`, the first `c` is the one after `a`. */
  lemma {:induction false} FirstIndexAfter(a: string, c: char, b: string)
    requires c !in a
    ensures c in a + [c] + b && FirstIndex(a + [c] + b, c) == |a|
  {
    var s := a + [c] + b;
    assert s[|a|] == c;
    if a != [] {
      FirstIndexAfter(a[1..], c, b);
      assert s[1..] == a[1..] + [c] + b;
    }
  }

  /** Leading whitespace before a non-blank start is exactly what `trimStart` drops. */
  lemma {:induction false} TrimStartPadded(a: string, m: string)
    requires AllSpace(a)
    requires m != [] && !IsJsSpace(m[0])
    ensures TrimStart(a + m) == m
    decreases |a|
  {
    if a != [] {
      assert (a + m)[0] == a[0];
      assert (a + m)[1..] == a[1..] + m;
      TrimStartPadded(a[1..], m);
    } else {
      assert a + m == m;
    }
  }

  /** Trailing whitespace after a non-blank end is exactly what `trimEnd` drops. */
  lemma {:induction false} TrimEndPadded(m: string, b: string)
    requires AllSpace(b)
    requires m != [] && !IsJsSpace(m[|m| - 1])
    ensures TrimEnd(m + b) == m
    decreases |b|
  {
    if b != [] {
      var s := m + b;
      assert s[|s| - 1] == b[|b| - 1];
      assert s[..|s| - 1] == m + b[..|b| - 1];
      TrimEndPadded(m, b[..|b| - 1]);
    } else {
      assert m + b == m;
    }
  }

  /** Trimming text padded with whitespace on both sides gives back the text. */
  lemma TrimPadded(a: string, m: string, b: string)
    requires AllSpace(a) && AllSpace(b)
    requires m != [] && !IsJsSpace(m[0]) && !IsJsSpace(m[|m| - 1])
    ensures Trim(a + m + b) == m
  {
    assert a + m + b == a + (m + b);
    assert (m + b)[0] == m[0];
    TrimStartPadded(a, m + b);
    TrimEndPadded(m, b);
  }

  /** Past the first non-whitespace character, `trimStart` keeps whatever follows. */
  lemma {:induction false} TrimStartAppend(s: string, c: char)
    requires !AllSpace(s)
    ensures TrimStart(s + [c]) == TrimStart(s) + [c]
    decreases |s|
  {
    assert (s + [c])[0] == s[0];
    if IsJsSpace(s[0]) {
      assert !AllSpace(s[1..]) by {
        if AllSpace(s[1..]) {
          forall k | 0 <= k < |s| ensures IsJsSpace(s[k]) {
            if k > 0 { assert s[k] == s[1..][k - 1]; }
          }
        }
      }
      assert (s + [c])[1..] == s[1..] + [c];
      TrimStartAppend(s[1..], c);
    }
  }

  /** A trailing whitespace character, such as the `\r` of a CRLF line, makes no difference to `trim`. */
  lemma TrimAppendSpace(s: string, c: char)
    requires IsJsSpace(c)
    ensures Trim(s + [c]) == Trim(s)
  {
    if AllSpace(s) {
      assert AllSpace(s + [c]) by {
        forall k | 0 <= k < |s + [c]| ensures IsJsSpace((s + [c])[k]) {
          if k < |s| { assert (s + [c])[k] == s[k]; }
        }
      }
    } else {
      var a := TrimStart(s);
      TrimStartAppend(s, c);
      assert (a + [c])[..|a|] == a;
      assert TrimEnd(a + [c]) == TrimEnd(a);
    }
  }

  /** `s.split(sep)` for a one-character separator: never empty, pieces free of `sep`. */
  function Split(s: string, sep: char): (parts: seq<string>)
    ensures |parts| >= 1
    ensures forall k :: 0 <= k < |parts| ==> sep !in parts[k]
    decreases |s|
  {
    if sep in s then
      var i := FirstIndex(s, sep);
      [s[..i]] + Split(s[i + 1..], sep)
    else
      [s]
  }

  /** `parts.join(sep)`. */
  function Join(parts: seq<string>, sep: string): string {
    if |parts| == 0 then ""
    else if |parts| == 1 then parts[0]
    else parts[0] + sep + Join(parts[1..], sep)
  }

  /** Joining the pieces of a split with the same separator gives back the string. */
  lemma {:induction false} JoinSplit(s: string, sep: char)
    ensures Join(Split(s, sep), [sep]) == s
    decreases |s|
  {
    if sep in s {
      var i := FirstIndex(s, sep);
      JoinSplit(s[i + 1..], sep);
      assert Split(s, sep)[1..] == Split(s[i + 1..], sep);
      assert s == s[..i] + [sep] + s[i + 1..];
    }
  }

  /** Splitting a join of separator-free pieces gives back the pieces. */
  lemma {:induction false} SplitJoin(parts: seq<string>, sep: char)
    requires |parts| >= 1
    requires forall k :: 0 <= k < |parts| ==> sep !in parts[k]
    ensures Split(Join(parts, [sep]), sep) == parts
  {
    if |parts| > 1 {
      var rest := Join(parts[1..], [sep]);
      var s := parts[0] + [sep] + rest;
      assert Join(parts, [sep]) == s;
      SplitJoin(parts[1..], sep);
      FirstIndexAfter(parts[0], sep, rest);
      assert s[..|parts[0]|] == parts[0];
      assert s[|parts[0]| + 1..] == rest;
    }
  }

  /** Appending one more piece to a non-empty join adds the separator and the piece. */
  lemma {:induction false} JoinAppend(parts: seq<string>, last: string, sep: string)
    requires |parts| >= 1
    ensures Join(parts + [last], sep) == Join(parts, sep) + sep + last
  {
    if |parts| > 1 {
      assert (parts + [last])[1..] == parts[1..] + [last];
      JoinAppend(parts[1..], last, sep);
    }
  }

  /** Splitting after one more separator adds exactly the trailing piece. */
  lemma SplitAppend(a: string, sep: char, b: string)
    requires sep !in b
    ensures Split(a + [sep] + b, sep) == Split(a, sep) + [b]
  {
    var parts := Split(a, sep) + [b];
    JoinAppend(Split(a, sep), b, [sep]);
    JoinSplit(a, sep);
    assert forall k :: 0 <= k < |parts| ==> sep !in parts[k] by {
      forall k | 0 <= k < |parts| ensures sep !in parts[k] {
        if k < |parts| - 1 {
          assert parts[k] == Split(a, sep)[k];
        }
      }
    }
    SplitJoin(parts, sep);
  }

  /** A string splits first at its first separator. */
  lemma SplitAtFirst(a: string, sep: char, b: string)
    requires sep !in a
    ensures Split(a + [sep] + b, sep) == [a] + Split(b, sep)
  {
    var s := a + [sep] + b;
    FirstIndexAfter(a, sep, b);
    assert s[..|a|] == a;
    assert s[|a| + 1..] == b;
  }

  /** A string without the separator splits into itself alone. */
  lemma SplitNoSeparator(s: string, sep: char)
    requires sep !in s
    ensures Split(s, sep) == [s]
  {
  }

  /** A template literal: its pieces written one after another. */
  function Concat(parts: seq<string>): string {
    if |parts| == 0 then "" else parts[0] + Concat(parts[1..])
  }

  /** A concatenation starts with its first piece. */
  lemma ConcatStartsWith(parts: seq<string>)
    requires |parts| >= 1
    ensures |parts[0]| <= |Concat(parts)| && Concat(parts)[..|parts[0]|] == parts[0]
  {
  }

  /** Replacing one piece changes the length by the difference in that piece's length. */
  lemma {:induction false} ConcatReplaceLength(parts: seq<string>, k: nat, x: string)
    requires k < |parts|
    ensures |Concat(parts[k := x])| + |parts[k]| == |Concat(parts)| + |x|
  {
    if k > 0 {
      assert parts[k := x][1..] == parts[1..][k - 1 := x];
      ConcatReplaceLength(parts[1..], k - 1, x);
    }
  }

  /** Every piece of a concatenation appears in it. */
  lemma {:induction false} ConcatContains(parts: seq<string>, k: nat)
    requires k < |parts|
    ensures IsSubstring(parts[k], Concat(parts))
  {
    if k == 0 {
      SubstringInContext(parts[0], "", Concat(parts[1..]));
      assert "" + parts[0] + Concat(parts[1..]) == Concat(parts);
    } else {
      ConcatContains(parts[1..], k - 1);
      SubstringWiden(parts[k], Concat(parts[1..]), parts[0], "");
      assert parts[0] + Concat(parts[1..]) + "" == Concat(parts);
    }
  }

  /** `b.includes(a)`. */
  predicate IsSubstring(a: string, b: string) {
    exists i | 0 <= i <= |b| - |a| :: SubstringAt(a, b, i)
  }

  /** `a` occurs in `b` starting at index `i`. */
  predicate SubstringAt(a: string, b: string, i: int) {
    0 <= i <= |b| - |a| && b[i..i + |a|] == a
  }

  lemma SubstringInContext(a: string, x: string, y: string)
    ensures IsSubstring(a, x + a + y)
  {
    assert SubstringAt(a, x + a + y, |x|);
  }

  /** A substring of `b` is also a substring of anything that has `b` inside. */
  lemma SubstringWiden(a: string, b: string, x: string, y: string)
    requires IsSubstring(a, b)
    ensures IsSubstring(a, x + b + y)
  {
    var i :| 0 <= i <= |b| - |a| && SubstringAt(a, b, i);
    assert (x + b + y)[|x| + i..|x| + i + |a|] == b[i..i + |a|];
    assert SubstringAt(a, x + b + y, |x| + i);
  }

  /** A substring of a substring is a substring. */
  lemma SubstringTransitive(a: string, b: string, c: string)
    requires IsSubstring(a, b) && IsSubstring(b, c)
    ensures IsSubstring(a, c)
  {
    var j :| 0 <= j <= |c| - |b| && SubstringAt(b, c, j);
    SubstringWiden(a, b, c[..j], c[j + |b|..]);
    assert c == c[..j] + b + c[j + |b|..];
  }

  /** Every piece of a join appears in it. */
  lemma {:induction false} JoinContains(parts: seq<string>, sep: string, k: nat)
    requires k < |parts|
    ensures IsSubstring(parts[k], Join(parts, sep))
  {
    if |parts| == 1 {
      SubstringInContext(parts[0], "", "");
      assert "" + parts[0] + "" == parts[0];
    } else if k == 0 {
      SubstringInContext(parts[0], "", sep + Join(parts[1..], sep));
      assert "" + parts[0] + (sep + Join(parts[1..], sep)) == Join(parts, sep);
    } else {
      JoinContains(parts[1..], sep, k - 1);
      SubstringWiden(parts[k], Join(parts[1..], sep), parts[0] + sep, "");
      assert parts[0] + sep + Join(parts[1..], sep) + "" == Join(parts, sep);
    }
  }

  function DigitChar(d: nat): (c: char)
    requires d < 10
  {
    "0123456789"[d]
  }

  function DigitValue(c: char): nat {
    if '0' <= c <= '9' then (c as int - '0' as int) as nat else 0
  }

  predicate IsDigit(c: char) {
    '0' <= c <= '9'
  }

  /** `${n}` for a non-negative integer: its decimal digits, no leading zero. */
  function Decimal(n: nat): (r: string)
    ensures |r| >= 1
    ensures forall k :: 0 <= k < |r| ==> IsDigit(r[k])
    ensures r[0] == '0' ==> n == 0
  {
    if n < 10 then [DigitChar(n)] else Decimal(n / 10) + [DigitChar(n % 10)]
  }

  /** Reads a string of decimal digits back as a number. */
  function ParseDecimal(s: string): nat {
    if |s| == 0 then 0 else 10 * ParseDecimal(s[..|s| - 1]) + DigitValue(s[|s| - 1])
  }

  /** Reading the decimal rendering of `n` gives back `n`. */
  lemma {:induction false} DecimalRoundTrip(n: nat)
    ensures ParseDecimal(Decimal(n)) == n
  {
    if n >= 10 {
      DecimalRoundTrip(n / 10);
      var r := Decimal(n);
      assert r[..|r| - 1] == Decimal(n / 10);
    }
  }

  /** Distinct numbers have distinct decimal renderings. */
  lemma DecimalInjective(m: nat, n: nat)
    requires Decimal(m) == Decimal(n)
    ensures m == n
  {
    DecimalRoundTrip(m);
    DecimalRoundTrip(n);
  }
}

=== FILE: prompt.dfy ===
/**
 * The pure part of answer generation: the four tone presets, the numbered
 * FAQ context, the system prompt built from them, the chat request sent to
 * the completion service and the fallback for an empty completion. The
 * completion service itself is a function parameter.
 */
module Prompt {
  import opened Wrappers
  import opened JsText
  import opened Types

  /** A tone's display name, description and the opening of its system prompt. */
  datatype TonePreset = TonePreset(name: string, description: string, systemPrompt: string)

  const PoliteName: string := "สุภาพ"
  const PoliteDescription: string :=
      "ใช้คำสุภาพ เป็นทางการ "
      + "เหมาะกับธุรกิจระดับ "
      + "premium"
  const PolitePrompt: string :=
      "คุณเป็นผู้ช่วยลูกค้าที่มีความสุภาพมาก "
      + "ใช้ภาษาไทยที่สุภาพเป็นทางการ "
      + "ใช้คำว่า 'คะ/ครับ' ทุกประโยค "
      + "และเรียกลูกค้าว่า 'คุณลูกค้า'"

  const FriendlyName: string := "เป็นกันเอง"
  const FriendlyDescription: string := "พูดจาเป็นกันเอง อบอุ่น ใกล้ชิด"
  const FriendlyPrompt: string :=
      "คุณเป็นผู้ช่วยลูกค้าที่เป็นกันเอง "
      + "อบอุ่น พูดจาเหมือนเพื่อน "
      + "แต่ยังคงความเป็นมืออาชีพ "
      + "ใช้ภาษาไทยที่เข้าใจง่าย"

  const ProfessionalName: string := "มืออาชีพ"
  const ProfessionalDescription: string := "กระชับ ตรงประเด็น มีประสิทธิภาพ"
  const ProfessionalPrompt: string :=
      "คุณเป็นผู้ช่วยลูกค้าที่มืออาชีพ "
      + "ตอบคำถามตรงประเด็น กระชับ "
      + "ชัดเจน ไม่พูดเยิ่นเย้อ "
      + "ใช้ภาษาไทยที่เป็นมาตรฐาน"

  const VendorName: string := "แบบแม่ค้า"
  const VendorDescription: string := "สนิทสนม ดูแล เหมือนแม่ค้าตลาด"
  const VendorPrompt: string :=
      "คุณเป็นผู้ช่วยลูกค้าที่พูดจาเหมือนแม่ค้าที่น่ารัก "
      + "สนิทสนม เป็นกันเองมาก "
      + "ดูแลลูกค้าเหมือนญาติ "
      + "อาจใช้คำว่า 'ค่ะ/ครับ' "
      + "หรือ 'จ้า/จ๊ะ' ตามความเหมาะสม"

  /** The preset table. */
  function Preset(t: Tone): TonePreset {
    match t
    case Polite => TonePreset(PoliteName, PoliteDescription, PolitePrompt)
    case Friendly => TonePreset(FriendlyName, FriendlyDescription, FriendlyPrompt)
    case Professional => TonePreset(ProfessionalName, ProfessionalDescription, ProfessionalPrompt)
    case Vendor => TonePreset(VendorName, VendorDescription, VendorPrompt)
  }

  /** No two tones share a display name. */
  lemma PresetNamesDistinct(t: Tone, u: Tone)
    ensures t != u ==> Preset(t).name != Preset(u).name
  {
  }

  /** One FAQ as the prompt builder receives it; the category is optional. */
  datatype PromptFaq = PromptFaq(question: string, answer: string, category: Option<string>)

  /** The options object of the prompt builder; absent members are None. */
  datatype GenerateOptions = GenerateOptions(
    customerQuestion: string,
    faqs: seq<PromptFaq>,
    tone: Tone,
    shopName: Option<string>,
    customInstructions: Option<string>)

  const DefaultShopName: string := "ร้านค้า"
  const GeneralCategory: string := "ทั่วไป"
  const InstructionsLabel: string := "คำแนะนำเพิ่มเติม: "
  const Apology: string := "ขออภัย ไม่สามารถสร้างคำตอบได้ในขณะนี้"
  const GenerationFailed: string := "Failed to generate AI response"
  const MaxTokens: int := 500

  /** `faq.category || "ทั่วไป"`: a missing or empty category reads as the general one. */
  function CategoryLabel(category: Option<string>): (r: string)
    ensures r != ""
    ensures category.Some? && category.value != "" ==> r == category.value
    ensures category.None? || category.value == "" ==> r == GeneralCategory
  {
    if category.Some? && category.value != "" then category.value else GeneralCategory
  }

  /** The pieces of the context block of the FAQ numbered `n`. */
  function FaqBlockParts(n: nat, f: PromptFaq): seq<string> {
    [Decimal(n), ". " + "คำถาม: ", f.question,
     "\n   " + "คำตอบ: ", f.answer,
     "\n   " + "หมวดหมู่: ", CategoryLabel(f.category)]
  }

  function FaqBlock(n: nat, f: PromptFaq): string {
    Concat(FaqBlockParts(n, f))
  }

  /** One block per FAQ, in input order, numbered from 1. */
  function FaqBlocks(faqs: seq<PromptFaq>): (r: seq<string>)
    ensures |r| == |faqs|
  {
    seq(|faqs|, i requires 0 <= i < |faqs| => FaqBlock(i + 1, faqs[i]))
  }

  /** The FAQ knowledge base as it appears in the system prompt. */
  function FaqContext(faqs: seq<PromptFaq>): string {
    Join(FaqBlocks(faqs), "\n\n")
  }

  /** No FAQs give an empty context. */
  lemma FaqContextEmpty()
    ensures FaqContext([]) == ""
  {
  }

  /**
   * Adding one FAQ at the end adds one block, numbered one past the others,
   * after a blank line; everything before it is unchanged.
   */
  lemma FaqContextAppend(faqs: seq<PromptFaq>, f: PromptFaq)
    ensures FaqContext(faqs + [f])
      == if faqs == [] then FaqBlock(1, f) else FaqContext(faqs) + "\n\n" + FaqBlock(|faqs| + 1, f)
  {
    assert FaqBlocks(faqs + [f]) == FaqBlocks(faqs) + [FaqBlock(|faqs| + 1, f)];
    if faqs != [] {
      JoinAppend(FaqBlocks(faqs), FaqBlock(|faqs| + 1, f), "\n\n");
    }
  }

  /** The block of the `i`-th FAQ starts with its number `i + 1`. */
  lemma FaqBlockNumbered(faqs: seq<PromptFaq>, i: nat)
    requires i < |faqs|
    ensures |Decimal(i + 1)| <= |FaqBlocks(faqs)[i]|
    ensures FaqBlocks(faqs)[i][..|Decimal(i + 1)|] == Decimal(i + 1)
  {
    ConcatStartsWith(FaqBlockParts(i + 1, faqs[i]));
  }

  /** Every FAQ's question, answer and category label appear in the context. */
  lemma FaqContextMentions(faqs: seq<PromptFaq>, i: nat)
    requires i < |faqs|
    ensures IsSubstring(faqs[i].question, FaqContext(faqs))
    ensures IsSubstring(faqs[i].answer, FaqContext(faqs))
    ensures IsSubstring(CategoryLabel(faqs[i].category), FaqContext(faqs))
  {
    var parts := FaqBlockParts(i + 1, faqs[i]);
    var b := FaqBlocks(faqs)[i];
    assert b == Concat(parts);
    JoinContains(FaqBlocks(faqs), "\n\n", i);
    ConcatContains(parts, 2);
    SubstringTransitive(faqs[i].question, b, FaqContext(faqs));
    ConcatContains(parts, 4);
    SubstringTransitive(faqs[i].answer, b, FaqContext(faqs));
    ConcatContains(parts, 6);
    SubstringTransitive(CategoryLabel(faqs[i].category), b, FaqContext(faqs));
  }

  /** The shop name as the prompt quotes it. */
  function Quoted(s: string): string {
    "\"" + s + "\""
  }

  /** The optional line of extra instructions. */
  function InstructionLine(customInstructions: string): string {
    if customInstructions != "" then InstructionsLabel + customInstructions + "\n" else ""
  }

  /** The text between the tone prompt and the quoted shop name. */
  const IntroBeforeShop: string := "\n\nคุณทำงานให้กับ "

  /** The text between the quoted shop name and the FAQ context. */
  const IntroAfterShop: string :=
      " และมีหน้าที่ตอบคำถามลูกค้าโดยอิงจากฐานความรู้ "
      + "FAQ ด้านล่าง\n"
      + "\n"
      + "ฐานความรู้ FAQ:\n"

  /** The answering rules up to the tone name. */
  const AnsweringRules: string :=
      "\n"
      + "\n"
      + "หลักการตอบคำถาม:\n"
      + "1. อ้างอิงข้อมูลจาก "
      + "FAQ เท่านั้น อย่าแต่งข้อมูลเอง\n"
      + "2. ถ้าไม่มีข้อมูลใน "
      + "FAQ ให้บอกว่า \"ขออภัยค่ะ/ครับ "
      + "ยังไม่มีข้อมูลส่วนนี้ "
      + "รบกวนสอบถามเพิ่มเติมได้ที่ "
      + "[ช่องทางติดต่อ]\"\n"
      + "3. ตอบเป็นภาษาไทยที่เข้าใจง่าย "
      + "ไม่ยาวเกินไป\n"
      + "4. ใช้ tone ตามที่กำหนด: "

  /** The last answering rule. */
  const ClosingRule: string :=
      "\n"
      + "5. ถ้าคำถามคล้ายกับหลาย "
      + "FAQ ให้ตอบครอบคลุมทุกมุม"

  /** The pieces of the system prompt; piece 6 is the optional instructions line. */
  function PromptParts(p: TonePreset, shopName: string, faqContext: string, customInstructions: string): seq<string> {
    [p.systemPrompt,
     IntroBeforeShop,
     Quoted(shopName),
     IntroAfterShop,
     faqContext,
     "\n\n",
     InstructionLine(customInstructions),
     AnsweringRules,
     p.name,
     ClosingRule]
  }

  /** The system prompt. */
  function SystemPrompt(p: TonePreset, shopName: string, faqContext: string, customInstructions: string): string {
    Concat(PromptParts(p, shopName, faqContext, customInstructions))
  }

  /**
   * The system prompt opens with the tone's own prompt and contains the
   * quoted shop name, the FAQ context and the tone's display name.
   */
  lemma SystemPromptMentions(p: TonePreset, shopName: string, faqContext: string, customInstructions: string)
    ensures var sp := SystemPrompt(p, shopName, faqContext, customInstructions);
      && |p.systemPrompt| <= |sp| && sp[..|p.systemPrompt|] == p.systemPrompt
      && IsSubstring(Quoted(shopName), sp)
      && IsSubstring(faqContext, sp)
      && IsSubstring(p.name, sp)
  {
    var parts := PromptParts(p, shopName, faqContext, customInstructions);
    ConcatStartsWith(parts);
    ConcatContains(parts, 2);
    ConcatContains(parts, 4);
    ConcatContains(parts, 8);
  }

  /**
   * The extra-instructions line is there exactly when instructions are
   * non-empty: an empty string gives the same prompt as no instructions,
   * any other string appears after its label.
   */
  lemma InstructionLineIff(p: TonePreset, shopName: string, faqContext: string, customInstructions: string)
    ensures customInstructions == ""
      <==> SystemPrompt(p, shopName, faqContext, customInstructions) == SystemPrompt(p, shopName, faqContext, "")
    ensures customInstructions != ""
      ==> IsSubstring(InstructionsLabel + customInstructions + "\n", SystemPrompt(p, shopName, faqContext, customInstructions))
  {
    var parts := PromptParts(p, shopName, faqContext, customInstructions);
    if customInstructions != "" {
      assert PromptParts(p, shopName, faqContext, "") == parts[6 := ""];
      ConcatReplaceLength(parts, 6, "");
      ConcatContains(parts, 6);
    }
  }

  /** The request sent to the completion service: system and user messages, a token cap. */
  datatype ChatRequest = ChatRequest(system: string, user: string, maxTokens: int)

  /** What the completion service did: threw, or returned the first choice's content (if any). */
  datatype Completion = Threw | Returned(content: Option<string>)

  /**
   * The request built from the options, with the shop name defaulted when
   * absent (an empty name stays empty) and instructions defaulted to "".
   * The system prompt carries the FAQ context, the tone's display name and,
   * when there are instructions, their line; without them it is the prompt
   * with no instructions line.
   */
  function BuildRequest(o: GenerateOptions): (r: ChatRequest)
    ensures r.user == o.customerQuestion && r.maxTokens == MaxTokens
    ensures IsSubstring(Quoted(o.shopName.GetOr(DefaultShopName)), r.system)
    ensures |Preset(o.tone).systemPrompt| <= |r.system|
    ensures r.system[..|Preset(o.tone).systemPrompt|] == Preset(o.tone).systemPrompt
    ensures forall i :: 0 <= i < |o.faqs| ==>
      IsSubstring(o.faqs[i].question, r.system) && IsSubstring(o.faqs[i].answer, r.system)
    ensures IsSubstring(FaqContext(o.faqs), r.system)
    ensures IsSubstring(Preset(o.tone).name, r.system)
    ensures o.customInstructions.GetOr("") != "" ==>
      IsSubstring(InstructionsLabel + o.customInstructions.value + "\n", r.system)
    ensures o.customInstructions.GetOr("") == "" ==>
      r.system == SystemPrompt(Preset(o.tone), o.shopName.GetOr(DefaultShopName), FaqContext(o.faqs), "")
  {
    var ctx := FaqContext(o.faqs);
    var sp := SystemPrompt(Preset(o.tone), o.shopName.GetOr(DefaultShopName), ctx, o.customInstructions.GetOr(""));
    SystemPromptMentions(Preset(o.tone), o.shopName.GetOr(DefaultShopName), ctx, o.customInstructions.GetOr(""));
    InstructionLineIff(Preset(o.tone), o.shopName.GetOr(DefaultShopName), ctx, o.customInstructions.GetOr(""));
    ContextInPrompt(o.faqs, sp);
    ChatRequest(sp, o.customerQuestion, MaxTokens)
  }

  /** Absent instructions and empty instructions build the same request. */
  lemma AbsentInstructionsAsEmpty(o: GenerateOptions)
    requires o.customInstructions.None?
    ensures BuildRequest(o) == BuildRequest(o.(customInstructions := Some("")))
  {
  }

  lemma ContextInPrompt(faqs: seq<PromptFaq>, sp: string)
    requires IsSubstring(FaqContext(faqs), sp)
    ensures forall i :: 0 <= i < |faqs| ==> IsSubstring(faqs[i].question, sp) && IsSubstring(faqs[i].answer, sp)
  {
    forall i | 0 <= i < |faqs|
      ensures IsSubstring(faqs[i].question, sp) && IsSubstring(faqs[i].answer, sp)
    {
      FaqContextMentions(faqs, i);
      SubstringTransitive(faqs[i].question, FaqContext(faqs), sp);
      SubstringTransitive(faqs[i].answer, FaqContext(faqs), sp);
    }
  }

  /** `content || "ขออภัย ..."`: an absent or empty completion becomes the apology. */
  function AnswerText(content: Option<string>): (r: string)
    ensures r != ""
    ensures content.Some? && content.value != "" ==> r == content.value
    ensures content.None? || content.value == "" ==> r == Apology
  {
    if content.Some? && content.value != "" then content.value else Apology
  }

  /**
   * Generates an answer with the completion service `complete`: a throw
   * becomes the fixed failure, anything else a non-empty answer.
   */
  function GenerateResponse(o: GenerateOptions, complete: ChatRequest -> Completion): (r: Result<string, string>)
    ensures var c := complete(BuildRequest(o));
      && (c.Threw? <==> r == Err(GenerationFailed))
      && (r.Err? <==> c.Threw?)
      && (r.Ok? ==> r.value != "")
      && (c.Returned? && c.content.Some? && c.content.value != "" ==> r == Ok(c.content.value))
      && (c.Returned? && (c.content.None? || c.content.value == "") ==> r == Ok(Apology))
  {
    match complete(BuildRequest(o))
    case Threw => Err(GenerationFailed)
    case Returned(content) => Ok(AnswerText(content))
  }
}

=== FILE: rate_limit.dfy ===
/**
 * The fixed-window request counter of the public demo endpoint: a map from
 * client key to (count, reset time), at most `Limit` requests per window of
 * `WindowMs` milliseconds, a window restarted lazily by the first request
 * that arrives after it ended. The clock is an explicit parameter.
 */
module RateLimit {

  const Limit: int := 10
  const WindowMs: int := 60000

  /** One client's window: requests counted so far and the instant it ends. */
  datatype Window = Window(count: int, resetTime: int)

  type Limiter = map<string, Window>

  /** The answer to one request and the counter map afterwards. */
  datatype Check = Check(allowed: bool, limiter: Limiter)

  /** Every stored count lies in 1..Limit. */
  predicate Valid(m: Limiter) {
    forall k :: k in m ==> 1 <= m[k].count <= Limit
  }

  /** The window of `key` still applies at `now`: the end instant itself is inside. */
  predicate InWindow(m: Limiter, key: string, now: int) {
    key in m && now <= m[key].resetTime
  }

  /** Counts one request from `key` at `now`. */
  function CheckRateLimit(m: Limiter, key: string, now: int): (r: Check)
    ensures r.limiter.Keys == m.Keys + {key}
    ensures forall k :: k in m && k != key ==> r.limiter[k] == m[k]
    ensures !r.allowed ==> r.limiter == m
    ensures !InWindow(m, key, now) ==> r.allowed && r.limiter[key] == Window(1, now + WindowMs)
    ensures InWindow(m, key, now) ==> (r.allowed <==> m[key].count < Limit)
    ensures InWindow(m, key, now) && r.allowed ==> r.limiter[key] == Window(m[key].count + 1, m[key].resetTime)
    ensures Valid(m) ==> Valid(r.limiter)
  {
    if key !in m || now > m[key].resetTime then
      Check(true, m[key := Window(1, now + WindowMs)])
    else if m[key].count >= Limit then
      Check(false, m)
    else
      Check(true, m[key := Window(m[key].count + 1, m[key].resetTime)])
  }

  /** The answers to a run of requests from one key, and the map after the last. */
  datatype Run = Run(answers: seq<bool>, limiter: Limiter)

  function RunRequests(m: Limiter, key: string, times: seq<int>): (r: Run)
    ensures |r.answers| == |times|
    decreases |times|
  {
    if |times| == 0 then Run([], m)
    else
      var c := CheckRateLimit(m, key, times[0]);
      var rest := RunRequests(c.limiter, key, times[1..]);
      Run([c.allowed] + rest.answers, rest.limiter)
  }

  /** Entries are never removed: every key present before a run is present after it. */
  lemma {:induction false} RunKeepsKeys(m: Limiter, key: string, times: seq<int>)
    ensures m.Keys <= RunRequests(m, key, times).limiter.Keys
    ensures |times| > 0 ==> key in RunRequests(m, key, times).limiter
    ensures Valid(m) ==> Valid(RunRequests(m, key, times).limiter)
    decreases |times|
  {
    if |times| > 0 {
      RunKeepsKeys(CheckRateLimit(m, key, times[0]).limiter, key, times[1..]);
    }
  }

  /**
   * Inside one window that already holds `c` requests, the `j`-th further
   * request (from 0) is allowed exactly when `c + j < Limit`; the window
   * keeps its end instant and its count stops at `Limit`.
   */
  lemma {:induction false} RunInsideWindow(m: Limiter, key: string, times: seq<int>)
    requires key in m && 1 <= m[key].count <= Limit
    requires forall j :: 0 <= j < |times| ==> times[j] <= m[key].resetTime
    ensures var r := RunRequests(m, key, times);
      && key in r.limiter
      && r.limiter[key].resetTime == m[key].resetTime
      && r.limiter[key].count == (if m[key].count + |times| < Limit then m[key].count + |times| else Limit)
      && forall j :: 0 <= j < |times| ==> (r.answers[j] <==> m[key].count + j < Limit)
    decreases |times|
  {
    if |times| > 0 {
      var c := CheckRateLimit(m, key, times[0]);
      RunInsideWindow(c.limiter, key, times[1..]);
      var rest := RunRequests(c.limiter, key, times[1..]);
      assert RunRequests(m, key, times).answers == [c.allowed] + rest.answers;
      forall j | 1 <= j < |times|
        ensures RunRequests(m, key, times).answers[j] <==> m[key].count + j < Limit
      {
        assert RunRequests(m, key, times).answers[j] == rest.answers[j - 1];
      }
    }
  }

  /**
   * A client with no live window that sends requests at `times`, all within
   * `WindowMs` of the first: the `k`-th request (from 1) is allowed exactly
   * when `k <= Limit`.
   */
  lemma KthRequestAllowed(m: Limiter, key: string, times: seq<int>, k: int)
    requires |times| >= 1 && !InWindow(m, key, times[0])
    requires forall j :: 1 <= j < |times| ==> times[j] <= times[0] + WindowMs
    requires 1 <= k <= |times|
    ensures RunRequests(m, key, times).answers[k - 1] <==> k <= Limit
  {
    var c := CheckRateLimit(m, key, times[0]);
    if k > 1 {
      RunInsideWindow(c.limiter, key, times[1..]);
    }
  }

  /** Once a window has ended, the next request is allowed whatever the count was. */
  lemma ExpiredWindowResets(m: Limiter, key: string, now: int)
    requires key in m && now > m[key].resetTime
    ensures CheckRateLimit(m, key, now) == Check(true, m[key := Window(1, now + WindowMs)])
  {
  }

  /** One request as the endpoint sees it: the client key and the arrival instant. */
  datatype Request = Request(key: string, now: int)

  /** The answers to requests from any clients, in arrival order, and the map after the last. */
  function Serve(m: Limiter, reqs: seq<Request>): (r: Run)
    ensures |r.answers| == |reqs|
    decreases |reqs|
  {
    if |reqs| == 0 then Run([], m)
    else
      var c := CheckRateLimit(m, reqs[0].key, reqs[0].now);
      var rest := Serve(c.limiter, reqs[1..]);
      Run([c.allowed] + rest.answers, rest.limiter)
  }

  /** The keys of the requests. */
  function KeysOf(reqs: seq<Request>): set<string> {
    if |reqs| == 0 then {} else {reqs[0].key} + KeysOf(reqs[1..])
  }

  /** The arrival instants of the requests from `key`, in order. */
  function TimesOf(reqs: seq<Request>, key: string): seq<int> {
    if |reqs| == 0 then []
    else (if reqs[0].key == key then [reqs[0].now] else []) + TimesOf(reqs[1..], key)
  }

  /** The answers to the requests from `key`, in order. */
  function AnswersOf(reqs: seq<Request>, answers: seq<bool>, key: string): seq<bool>
    requires |answers| == |reqs|
  {
    if |reqs| == 0 then []
    else (if reqs[0].key == key then [answers[0]] else []) + AnswersOf(reqs[1..], answers[1..], key)
  }

  /**
   * Over any sequence of requests from any clients, the map gains exactly
   * the keys that sent a request and loses none, and counts stay in
   * 1..Limit.
   */
  lemma {:induction false} ServeKeepsKeys(m: Limiter, reqs: seq<Request>)
    ensures Serve(m, reqs).limiter.Keys == m.Keys + KeysOf(reqs)
    ensures Valid(m) ==> Valid(Serve(m, reqs).limiter)
    decreases |reqs|
  {
    if |reqs| > 0 {
      ServeKeepsKeys(CheckRateLimit(m, reqs[0].key, reqs[0].now).limiter, reqs[1..]);
    }
  }

  /** A run from one key depends only on that key's entry in the map. */
  lemma {:induction false} RunSeesOwnEntry(m1: Limiter, m2: Limiter, key: string, times: seq<int>)
    requires key in m1 <==> key in m2
    requires key in m1 ==> m1[key] == m2[key]
    ensures var r1 := RunRequests(m1, key, times);
      var r2 := RunRequests(m2, key, times);
      && r1.answers == r2.answers
      && (key in r1.limiter <==> key in r2.limiter)
      && (key in r1.limiter ==> r1.limiter[key] == r2.limiter[key])
    decreases |times|
  {
    if |times| > 0 {
      RunSeesOwnEntry(CheckRateLimit(m1, key, times[0]).limiter, CheckRateLimit(m2, key, times[0]).limiter, key, times[1..]);
    }
  }

  /**
   * Each client has its own quota: in any interleaving of requests from
   * many clients, the answers to one client's requests, and its entry
   * afterwards, are those of that client's requests sent alone.
   */
  lemma {:induction false} ServeIsolatesClients(m: Limiter, reqs: seq<Request>, key: string)
    ensures var s := Serve(m, reqs);
      var alone := RunRequests(m, key, TimesOf(reqs, key));
      && AnswersOf(reqs, s.answers, key) == alone.answers
      && (key in s.limiter <==> key in alone.limiter)
      && (key in s.limiter ==> s.limiter[key] == alone.limiter[key])
    decreases |reqs|
  {
    if |reqs| > 0 {
      var s := Serve(m, reqs);
      var c := CheckRateLimit(m, reqs[0].key, reqs[0].now);
      var rest := Serve(c.limiter, reqs[1..]);
      var t := TimesOf(reqs[1..], key);
      assert s.answers[1..] == rest.answers && s.limiter == rest.limiter;
      assert AnswersOf(reqs, s.answers, key)
        == (if reqs[0].key == key then [c.allowed] else []) + AnswersOf(reqs[1..], rest.answers, key);
      ServeIsolatesClients(c.limiter, reqs[1..], key);
      if reqs[0].key == key {
        assert TimesOf(reqs, key) == [reqs[0].now] + t;
        assert TimesOf(reqs, key)[1..] == t;
      } else {
        assert TimesOf(reqs, key) == t;
        RunSeesOwnEntry(c.limiter, m, key, t);
      }
    }
  }
}

=== FILE: types.dfy ===
/**
 * Row shapes and enumerations of the database schema. Timestamps are the
 * strings the database hands back; whoever compares them parses them.
 */
module Types {
  import opened Wrappers

  /** The reply style a shop chooses. */
  datatype Tone = Polite | Friendly | Professional | Vendor

  /** The subscription plan of a profile. */
  datatype PlanType = Free | Starter | Pro

  /** Every tone, in the order the schema lists them. */
  const AllTones: seq<Tone> := [Polite, Friendly, Professional, Vendor]

  /** The key under which a tone is stored and sent. */
  function ToneKey(t: Tone): string {
    match t
    case Polite => "polite"
    case Friendly => "friendly"
    case Professional => "professional"
    case Vendor => "vendor"
  }

  /** Reads a stored tone key; any other string is not a tone. */
  function ParseTone(s: string): Option<Tone> {
    if s == "polite" then Some(Polite)
    else if s == "friendly" then Some(Friendly)
    else if s == "professional" then Some(Professional)
    else if s == "vendor" then Some(Vendor)
    else None
  }

  /** There are exactly four tones, listed once each. */
  lemma AllTonesListed(t: Tone)
    ensures t in AllTones
    ensures |AllTones| == 4
    ensures forall i, j :: 0 <= i < j < |AllTones| ==> AllTones[i] != AllTones[j]
  {
  }

  /** A string parses as a tone exactly when it is that tone's key. */
  lemma ParseToneKey(s: string, t: Tone)
    ensures ParseTone(s) == Some(t) <==> s == ToneKey(t)
  {
  }

  /** A row of the `profiles` table. */
  datatype Profile = Profile(
    id: string,
    shopName: Option<string>,
    planType: PlanType,
    trialEndsAt: Option<string>,
    subscriptionEndsAt: Option<string>,
    createdAt: string,
    updatedAt: string)

  /** A row of the `faqs` table. */
  datatype FaqRow = FaqRow(
    id: string,
    userId: string,
    category: string,
    question: string,
    answer: string,
    isActive: bool,
    createdAt: string,
    updatedAt: string)

  /** A row of the `settings` table. */
  datatype SettingsRow = SettingsRow(
    id: string,
    userId: string,
    tone: Tone,
    shopName: Option<string>,
    greetingMessage: Option<string>,
    customInstructions: Option<string>,
    createdAt: string,
    updatedAt: string)
}

=== FILE: user_store.dfy ===
/**
 * The client-side store of the signed-in user, their profile and their
 * settings, with its setters and the three derived plan checks. The clock
 * and the date parser are parameters: `parseInstant` gives the instant in
 * milliseconds a timestamp string denotes, or `None` for a string that is
 * not a valid date.
 */
module UserStore {
  import opened Wrappers
  import opened Types

  /** The part of the signed-in auth user the model keeps. */
  datatype AuthUser = AuthUser(id: string, email: Option<string>)

  datatype StoreState = StoreState(
    user: Option<AuthUser>,
    profile: Option<Profile>,
    settings: Option<SettingsRow>,
    isLoading: bool)

  /** The state before anything is loaded: empty, and loading. */
  const Initial: StoreState := StoreState(None, None, None, true)

  function SetUser(s: StoreState, u: Option<AuthUser>): (r: StoreState)
    ensures r.user == u
    ensures r.(user := s.user) == s
  {
    s.(user := u)
  }

  function SetProfile(s: StoreState, p: Option<Profile>): (r: StoreState)
    ensures r.profile == p
    ensures r.(profile := s.profile) == s
  {
    s.(profile := p)
  }

  function SetSettings(s: StoreState, st: Option<SettingsRow>): (r: StoreState)
    ensures r.settings == st
    ensures r.(settings := s.settings) == s
  {
    s.(settings := st)
  }

  function SetLoading(s: StoreState, loading: bool): (r: StoreState)
    ensures r.isLoading == loading
    ensures r.(isLoading := s.isLoading) == s
  {
    s.(isLoading := loading)
  }

  /** Sign-out: everything cleared, and no longer loading. */
  function Reset(s: StoreState): (r: StoreState)
    ensures r.user.None? && r.profile.None? && r.settings.None? && !r.isLoading
  {
    StoreState(None, None, None, false)
  }

  /**
   * Reset forgets the state it is applied to, is idempotent, and does not
   * return the store to its initial state: the initial state is loading.
   */
  lemma ResetForgets(s: StoreState, t: StoreState)
    ensures Reset(s) == Reset(t)
    ensures Reset(Reset(s)) == Reset(s)
    ensures Reset(s) != Initial
    ensures Reset(s) == SetLoading(Initial, false)
  {
  }

  /** Setters of different fields commute, and a later set of a field wins. */
  lemma SettersCommute(s: StoreState, u: Option<AuthUser>, p: Option<Profile>, p2: Option<Profile>, loading: bool)
    ensures SetProfile(SetUser(s, u), p) == SetUser(SetProfile(s, p), u)
    ensures SetLoading(SetProfile(s, p), loading) == SetProfile(SetLoading(s, loading), p)
    ensures SetProfile(SetProfile(s, p), p2) == SetProfile(s, p2)
  {
  }

  /** The profile is on the pro plan. */
  function IsPro(s: StoreState): (r: bool)
    ensures r <==> exists p :: s.profile == Some(p) && p.planType == Pro
  {
    assert s.profile.Some? ==> s.profile == Some(s.profile.value);
    s.profile.Some? && s.profile.value.planType == Pro
  }

  /**
   * An end-of-period stamp is still in the future: it is present, not the
   * empty string, denotes a valid date, and that date is strictly later
   * than now.
   */
  predicate EndsAfter(stamp: Option<string>, parseInstant: string -> Option<int>, now: int) {
    && stamp.Some?
    && stamp.value != ""
    && parseInstant(stamp.value).Some?
    && parseInstant(stamp.value).value > now
  }

  function IsTrialActive(s: StoreState, parseInstant: string -> Option<int>, now: int): (r: bool)
    ensures r <==> s.profile.Some? && EndsAfter(s.profile.value.trialEndsAt, parseInstant, now)
    ensures r ==> s.profile.value.trialEndsAt.Some?
  {
    match s.profile
    case None => false
    case Some(p) =>
      match p.trialEndsAt
      case None => false
      case Some(t) => t != "" && TimeIsAfter(parseInstant(t), now)
  }

  function IsSubscriptionActive(s: StoreState, parseInstant: string -> Option<int>, now: int): (r: bool)
    ensures r <==> s.profile.Some? && EndsAfter(s.profile.value.subscriptionEndsAt, parseInstant, now)
    ensures r ==> s.profile.value.subscriptionEndsAt.Some?
  {
    match s.profile
    case None => false
    case Some(p) =>
      match p.subscriptionEndsAt
      case None => false
      case Some(t) => t != "" && TimeIsAfter(parseInstant(t), now)
  }

  /** `date > new Date()`: an invalid date compares false with anything. */
  function TimeIsAfter(date: Option<int>, now: int): (r: bool)
    ensures r <==> date.Some? && date.value > now
  {
    match date
    case None => false
    case Some(t) => t > now
  }

  /**
   * The trial and subscription checks only ever turn off as time goes on: active at some instant
   * means active at every earlier one, and the end instant itself is
   * already past.
   */
  lemma ActivityMonotone(s: StoreState, parseInstant: string -> Option<int>, earlier: int, later: int)
    requires earlier <= later
    ensures IsTrialActive(s, parseInstant, later) ==> IsTrialActive(s, parseInstant, earlier)
    ensures IsSubscriptionActive(s, parseInstant, later) ==> IsSubscriptionActive(s, parseInstant, earlier)
    ensures s.profile.Some? && s.profile.value.trialEndsAt.Some? && parseInstant(s.profile.value.trialEndsAt.value).Some? ==>
      !IsTrialActive(s, parseInstant, parseInstant(s.profile.value.trialEndsAt.value).value)
  {
  }

  /** With no profile loaded, as after a reset, every plan check is false. */
  lemma NoProfileNoPlan(s: StoreState, parseInstant: string -> Option<int>, now: int)
    requires s.profile.None?
    ensures !IsPro(s) && !IsTrialActive(s, parseInstant, now) && !IsSubscriptionActive(s, parseInstant, now)
    ensures !IsPro(Reset(s))
  {
  }

  /** The plan checks are independent: a pro profile need not have an active subscription. */
  lemma ProWithoutSubscription(s: StoreState, parseInstant: string -> Option<int>, now: int)
    requires s.profile.Some? && s.profile.value.planType == Pro && s.profile.value.subscriptionEndsAt.None?
    ensures IsPro(s) && !IsSubscriptionActive(s, parseInstant, now)
  {
  }
}

=== FILE: validations.dfy ===
/**
 * The form schemas as checks that return the list of problems found, in
 * field order. Every field of an object is checked, and a refinement on the
 * whole object still runs when the fields only broke length or format
 * rules. Whether a string is an e-mail address is left to a predicate
 * parameter.
 */
module Validations {
  import opened Wrappers
  import opened Types
  import Http

  /** One problem: the field it is attached to and the message shown. */
  datatype Issue = Issue(path: string, message: string)

  const InvalidEmail: string := "กรุณากรอกอีเมลที่ถูกต้อง"
  const PasswordTooShort: string := "รหัสผ่านต้องมีอย่างน้อย 6 ตัวอักษร"
  const ShopNameRequired: string := "กรุณากรอกชื่อร้านค้า"
  const PasswordsDiffer: string := "รหัสผ่านไม่ตรงกัน"
  const CategoryRequired: string := "กรุณาเลือกหมวดหมู่"
  const QuestionTooShort: string := "คำถามต้องมีอย่างน้อย 5 ตัวอักษร"
  const AnswerTooShort: string := "คำตอบต้องมีอย่างน้อย 10 ตัวอักษร"
  const ToneRequired: string := "กรุณาเลือก tone"
  const ShopNameTooShort: string := "ชื่อร้านต้องมีอย่างน้อย 2 ตัวอักษร"
  const GreetingTooLong: string := "ข้อความทักทายต้องไม่เกิน 200 ตัวอักษร"
  const InstructionsTooLong: string := "คำแนะนำเพิ่มเติมต้องไม่เกิน 500 ตัวอักษร"
  const GeneratorQuestionTooShort: string := "คำถามต้องมีอย่างน้อย 3 ตัวอักษร"

  /** The message of an enum check for a value outside the four tones. */
  function InvalidToneMessage(received: string): string {
    "Invalid enum value. Expected 'polite' | 'friendly' | 'professional' | 'vendor', received '"
      + received + "'"
  }

  /** `.min(n, message)` on a string field. */
  function MinLength(path: string, value: string, n: nat, message: string): (r: seq<Issue>)
    ensures r == [] <==> |value| >= n
    ensures r != [] ==> r == [Issue(path, message)]
  {
    if |value| >= n then [] else [Issue(path, message)]
  }

  /** `.max(n, message).optional()` on a string field: absent is fine. */
  function OptionalMaxLength(path: string, value: Option<string>, n: nat, message: string): (r: seq<Issue>)
    ensures r == [] <==> value.None? || |value.value| <= n
    ensures r != [] ==> r == [Issue(path, message)]
  {
    if value.Some? && |value.value| > n then [Issue(path, message)] else []
  }

  /** `.email(message)`. */
  function EmailCheck(isEmail: string -> bool, email: string): (r: seq<Issue>)
    ensures r == [] <==> isEmail(email)
    ensures r != [] ==> r == [Issue("email", InvalidEmail)]
  {
    if isEmail(email) then [] else [Issue("email", InvalidEmail)]
  }

  /** The login form. */
  function LoginIssues(isEmail: string -> bool, email: string, password: string): (r: seq<Issue>)
    ensures r == [] <==> isEmail(email) && |password| >= 6
    ensures Issue("password", PasswordTooShort) in r <==> |password| < 6
  {
    EmailCheck(isEmail, email) + MinLength("password", password, 6, PasswordTooShort)
  }

  datatype RegisterForm = RegisterForm(email: string, password: string, confirmPassword: string, shopName: string)

  /**
   * The registration form: the field checks, then the refinement that the
   * two passwords agree, reported against the confirmation field.
   */
  function RegisterIssues(isEmail: string -> bool, f: RegisterForm): (r: seq<Issue>)
    ensures r == [] <==> isEmail(f.email) && |f.password| >= 6 && |f.shopName| >= 2 && f.password == f.confirmPassword
    ensures Issue("confirmPassword", PasswordsDiffer) in r <==> f.password != f.confirmPassword
    ensures f.password != f.confirmPassword ==> r[|r| - 1] == Issue("confirmPassword", PasswordsDiffer)
    ensures Issue("password", PasswordTooShort) in r <==> |f.password| < 6
    ensures Issue("shopName", ShopNameRequired) in r <==> |f.shopName| < 2
  {
    EmailCheck(isEmail, f.email)
      + MinLength("password", f.password, 6, PasswordTooShort)
      + MinLength("shopName", f.shopName, 2, ShopNameRequired)
      + (if f.password == f.confirmPassword then [] else [Issue("confirmPassword", PasswordsDiffer)])
  }

  /** The mismatch is reported even when the fields themselves are also wrong. */
  lemma MismatchReportedAlongsideFieldIssues(isEmail: string -> bool)
    ensures var r := RegisterIssues(isEmail, RegisterForm("x", "abc", "abd", "s"));
      && Issue("password", PasswordTooShort) in r
      && Issue("shopName", ShopNameRequired) in r
      && Issue("confirmPassword", PasswordsDiffer) in r
  {
  }

  datatype FaqForm = FaqForm(category: string, question: string, answer: string, isActive: Option<bool>)

  /** A parsed FAQ: the active flag is always filled in. */
  datatype FaqInput = FaqInput(category: string, question: string, answer: string, isActive: bool)

  /** The FAQ form (`is_active` in the form); an absent active flag defaults to true. */
  function ParseFaq(f: FaqForm): (r: Result<FaqInput, seq<Issue>>)
    ensures r.Ok? <==> |f.category| >= 1 && |f.question| >= 5 && |f.answer| >= 10
    ensures r.Ok? ==> r.value == FaqInput(f.category, f.question, f.answer, f.isActive.GetOr(true))
    ensures r.Ok? && f.isActive.None? ==> r.value.isActive
    ensures r.Err? ==> r.error != []
  {
    var issues := MinLength("category", f.category, 1, CategoryRequired)
      + MinLength("question", f.question, 5, QuestionTooShort)
      + MinLength("answer", f.answer, 10, AnswerTooShort);
    if issues == [] then Ok(FaqInput(f.category, f.question, f.answer, f.isActive.GetOr(true)))
    else Err(issues)
  }

  datatype SettingsForm = SettingsForm(
    tone: Option<string>,
    shopName: string,
    greetingMessage: Option<string>,
    customInstructions: Option<string>)

  datatype SettingsInput = SettingsInput(
    tone: Tone,
    shopName: string,
    greetingMessage: Option<string>,
    customInstructions: Option<string>)

  /** The tone field: required, and one of the four keys. */
  function ToneCheck(tone: Option<string>): (r: Result<Tone, Issue>)
    ensures r.Ok? <==> tone.Some? && ParseTone(tone.value).Some?
    ensures r.Ok? ==> ToneKey(r.value) == tone.value
    ensures tone.None? ==> r == Err(Issue("tone", ToneRequired))
  {
    match tone
    case None => Err(Issue("tone", ToneRequired))
    case Some(s) =>
      match ParseTone(s)
      case Some(t) => Ok(t)
      case None => Err(Issue("tone", InvalidToneMessage(s)))
  }

  /** The settings form. */
  function ParseSettings(f: SettingsForm): (r: Result<SettingsInput, seq<Issue>>)
    ensures r.Ok? <==>
      && f.tone.Some? && ParseTone(f.tone.value).Some?
      && |f.shopName| >= 2
      && (f.greetingMessage.None? || |f.greetingMessage.value| <= 200)
      && (f.customInstructions.None? || |f.customInstructions.value| <= 500)
    ensures r.Ok? ==>
      && ToneKey(r.value.tone) == f.tone.value
      && r.value.shopName == f.shopName
      && r.value.greetingMessage == f.greetingMessage
      && r.value.customInstructions == f.customInstructions
  {
    var tone := ToneCheck(f.tone);
    var issues := (if tone.Err? then [tone.error] else [])
      + MinLength("shop_name", f.shopName, 2, ShopNameTooShort)
      + OptionalMaxLength("greeting_message", f.greetingMessage, 200, GreetingTooLong)
      + OptionalMaxLength("custom_instructions", f.customInstructions, 500, InstructionsTooLong);
    if issues == [] then Ok(SettingsInput(tone.value, f.shopName, f.greetingMessage, f.customInstructions))
    else Err(issues)
  }

  /** Every stored tone key passes the settings form's tone check. */
  lemma StoredTonesAccepted(t: Tone)
    ensures ToneCheck(Some(ToneKey(t))) == Ok(t)
  {
    ParseToneKey(ToneKey(t), t);
  }

  /** The answer-generator form. */
  function GenerateAnswerIssues(question: string): (r: seq<Issue>)
    ensures r == [] <==> |question| >= 3
  {
    MinLength("question", question, 3, GeneratorQuestionTooShort)
  }

  /**
   * The generator form is stricter than the answer endpoint's own check:
   * whatever it accepts the endpoint accepts, but the endpoint also takes
   * one- and two-character questions.
   */
  lemma GeneratorFormStricterThanEndpoint(question: string)
    ensures GenerateAnswerIssues(question) == [] ==> Http.IsNonEmptyString(Http.Str(question))
    ensures Http.IsNonEmptyString(Http.Str("ab")) && GenerateAnswerIssues("ab") != []
  {
  }

  /** The profile form. */
  function ProfileUpdateIssues(shopName: string): (r: seq<Issue>)
    ensures r == [] <==> |shopName| >= 2
  {
    MinLength("shop_name", shopName, 2, ShopNameTooShort)
  }
}

=== FILE: wrappers.dfy ===
/** Option and Result values shared by every module of the model. */
module Wrappers {

  /** A JavaScript value that may be `undefined`/`null` (None) or present (Some). */
  datatype Option<+T> = None | Some(value: T) {

    /** The present value, or `default` when absent (JavaScript's `??`). */
    function GetOr(default: T): T {
      match this
      case Some(v) => v
      case None => default
    }
  }

  /** The outcome of a parse: a value, or the list of problems found. */
  datatype Result<+T, +E> = Ok(value: T) | Err(error: E)
}
